=== FILE: README.md ===
# Cashback ledger model

A Dafny model of the core of `cashback-serv`, a Go service that keeps a
cashback balance per turon user and an append-only history of the
increases and decreases applied to it.

- **Ledger** (`ledger.dfy`): the business rules of the queue's handlers as
  functions of the store state. Balances are keyed by turon user id; the
  history is a sequence; serial ids come from counters. A `Fault` value
  names the one repository call that fails, so every error branch of the
  handlers is reachable. The single consumer goroutine of the queue is the
  function `Run`, which applies operations in FIFO order. The lemmas about
  `Run` state conservation, one reply per operation, non-negative balances
  and the replay invariant.
- **Queue** (`queue.dfy`): `CashbackRepository` (the cashback tables, in
  memory) and `CashbackQueue` (the lock registry, the handlers, `process`
  and `Enqueue`) as classes. Each method is proved to leave the store as
  the ledger functions say.
- **Sources** (`sources.dfy`): the sources table and `FindSourceOrCreate`,
  as a function with its lemmas and as the service method it specifies.
- **Paging** (`paging.dfy`): `Pagination.Calculate` with Go's int64
  wrap-around of the offset.
- **Queries** (`queries.dfy`): `replaceAll`, `buildNamedQuery`,
  `buildDateFilters`, `buildPagination`, the page-total division, and the
  query-building part of the repository's history read.
- **Service** (`service.dfy`): the id guard, `validateDates`,
  `validatePagination`, and the `CashbackService` methods. `Submission`
  specifies increase and decrease end to end, over both stores.
- **Wrappers** (`wrappers.dfy`): `Option`, `Result` and `Outcome`.
- **Errors** (`errors.dfy`): the service's errors and their Go messages
  (a database error's text is a placeholder for the driver's).
- **Int64** (`int64.dfy`): Go's int64 range, wrap-around and truncating
  division.

Amounts are integers (minor units). The constants of the `const` package
are not part of this model; the operation types are `"increase"` and
`"decrease"` and the turon source slug is `"turon"`, all distinct.

Notable behaviours of the code, each stated by a lemma:

- Nothing wraps the balance update and the history append in one
  transaction. When the append fails, the balance has already moved and no
  history row records it (`Ledger.AppendFailureMovesBalance`, with a
  concrete instance in `Ledger.AppendFailureLosesHistory`).
- Nothing checks that an amount is positive. A decrease can never take a
  balance below zero, but an increase by a negative amount can
  (`Ledger.NegativeIncreaseGoesBelowZero`).
- `(Page - 1) * PageSize` is int64 arithmetic. Page 2^62 with 100 items per
  page gives offset -100 (`Paging.OffsetWrapsForHugePage`).
- A request with only a cinerama user id always fails. The source cannot be
  determined without a turon id (`Service.CineramaOnlyRejected`).

The history row's type column is the one place where the model follows
the evident intent rather than the code: see "## Findings".

Where the code and its description differ, the model follows the code:

- The service calls `FindSourceOrCreate` with three arguments, but the
  implementation takes two (turon id, host IP). The model uses the
  two-argument implementation.
- The service's `GetCashbackByUserID` passes dates to a repository lookup
  that takes only the user id. The model validates the dates and looks up
  by id.

## Model

| member | source | states |
|---|---|---|
| Errors.Message | internal/service/cashback.go:35-93 | the Go error texts of the service (and of service/source.go, the queue's handlers and the history read): never empty, and a wrapped error's text ends with its cause's text, as `fmt.Errorf` with `%w` makes it |
| Int64.Wrap64 | models/pagination.go:20 | the result is an int64; it equals its argument when that is in range, and is congruent to it modulo 2^64 |
| Int64.GoDiv | internal/repository/cashback.go:174 | Go's integer division by a positive divisor truncates toward zero: floor bounds for non-negative, ceiling bounds for negative dividends |
| Paging.NormalPage | models/pagination.go:13-15 | the page is at least 1; a valid page is kept, anything below 1 becomes 1 |
| Paging.NormalPageSize | models/pagination.go:16-18 | the size is at least 1; a valid size is kept, anything below 1 becomes 10 |
| Paging.Calculated | models/pagination.go:12-21 | page and size are at least 1 and valid ones are kept; limit equals size; offset is (page-1)*size and non-negative when it fits in int64; the totals are untouched; int64 range is preserved |
| Paging.CalculateIdempotent | models/pagination.go:12-21 | calculating twice equals calculating once |
| Paging.OffsetWrapsForHugePage | models/pagination.go:20 | page 2^62 with size 100 yields offset -100 |
| Paging.Pagination.Calculate | models/pagination.go:12-21 | the record after the in-place update is `Calculated` of the record before; every field stays an int64 |
| Ledger.WithBalance | internal/queue/cashback_queue.go:87-95 | creating a row maps the user to a balance with the next serial id and the given amount; history is untouched |
| Ledger.WithAmount | internal/queue/cashback_queue.go:96-101 | updating by id rewrites the amount of the rows with that id only; keys, ids and history are untouched |
| Ledger.Append | internal/repository/cashback.go:45-78 | a failing insert changes nothing and answers an error; otherwise exactly one row with the next history id, the cashback id, source, amount, host and type is appended, and balances are untouched |
| Ledger.IncreaseStep | internal/queue/cashback_queue.go:81-112 | a failed lookup is an error with nothing changed; on a healthy store an increase is always accepted; an accepted increase adds the amount to the user's balance (creating it with the next id when missing) and appends one row against that balance; a refusal before the append changes nothing |
| Ledger.DecreaseStep | internal/queue/cashback_queue.go:114-141 | a failed lookup, a missing balance and an insufficient balance are each refused with their own error and nothing changed; on a healthy store a covered decrease is accepted; an accepted one had a covering balance, subtracts the amount and appends one row against the existing balance |
| Ledger.Dispatch | internal/queue/cashback_queue.go:67-77 | an unknown operation type is refused with nothing changed, and so is every refusal before the history append |
| Ledger.Run | internal/queue/cashback_queue.go:54-79 | one reply per operation |
| Ledger.DispatchValid | internal/queue/cashback_queue.go:67-77 | any operation, under any store fault, keeps balance ids distinct and below the counter, and history only grows by appending |
| Ledger.DispatchEffect | internal/queue/cashback_queue.go:67-141 | an unknown type is refused as unknown under any fault; for increase and decrease a failed lookup is a database error, a decrease without a balance is "no cashback found" and one exceeding the balance is "insufficient"; a rejected operation changes nothing; on a healthy store an operation is accepted exactly when it is an increase, or a decrease with a balance that covers it; an accepted one moves its user's amount by its signed amount, leaves all other users alone and appends exactly one row recording amount, source, host and type against the user's balance |
| Ledger.DispatchConsistent | internal/queue/cashback_queue.go:81-141 | each balance equals the replay of its history rows, and an operation whose append succeeds preserves that |
| Ledger.AppendFailureLosesHistory | internal/queue/cashback_queue.go:96-111 | a failing history append after a balance write leaves a balance of 500 with no history, breaking the replay invariant |
| Ledger.AppendFailureMovesBalance | internal/queue/cashback_queue.go:81-141 | for every operation the store would accept, a failing history append answers a database error while the user's amount has already moved by the signed amount, other users are untouched and no row is added |
| Ledger.NegativeIncreaseGoesBelowZero | internal/queue/cashback_queue.go:87-95 | an increase by -1 is accepted and leaves a negative balance |
| Ledger.DispatchAsWritten | internal/queue/cashback_queue.go:104-111 | the dispatcher as the code has it, storing the request's User-Agent as the row's type (here and at lines 133-140): balances, replies and the number of rows are those of `Dispatch` |
| Ledger.HistoryLosesDirection | internal/queue/cashback_queue.go:104-111 | as written (here and at lines 133-140), an increase and a decrease of 5 by the same client append identical rows while leaving 10 and 0; with the operation type stored the rows differ |
| Ledger.RunReplies | internal/queue/cashback_queue.go:54-79 | draining n operations yields n replies, the k-th being the reply of the k-th operation on the state left by the first k |
| Ledger.RunValid | internal/queue/cashback_queue.go:54-79 | any sequence of operations, under any fault, keeps the store well formed and only appends to history |
| Ledger.RunNonNegative | internal/queue/cashback_queue.go:124-126 | with non-negative amounts no sequence of operations drives a balance below zero |
| Ledger.RunConservation | internal/queue/cashback_queue.go:81-141 | when appends succeed, each user's final amount is the initial amount plus the signed amounts of that user's accepted operations; history grows by one row per accepted operation, in order, each recording its operation and filed against that operation's user's balance id |
| Ledger.DispatchKeepsIds | internal/queue/cashback_queue.go:87-101 | no operation, under any fault, removes a user's balance or changes its id |
| Ledger.RunConsistent | internal/queue/cashback_queue.go:81-141 | the replay invariant holds after any sequence of operations whose appends succeed |
| Ledger.EmptyConsistent | internal/queue/cashback_queue.go:81-141 | the empty store satisfies the replay invariant |
| Ledger.RunLookupFailure | internal/queue/cashback_queue.go:82-85 | when the balance lookup fails, every reply is an error and nothing changes |
| Queue.CashbackRepository.constructor | internal/repository/cashback.go:15-17 | a new store is empty |
| Queue.CashbackRepository.GetCashbackByUserID | internal/repository/cashback.go:80-111 | a failing store answers an error; otherwise the user's row, or none when the user has no row |
| Queue.CashbackRepository.CreateCashback | internal/repository/cashback.go:19-43 | the inserted row gets the next serial id; the state becomes `WithBalance`; a failing insert changes nothing |
| Queue.CashbackRepository.UpdateCashbackAmount | internal/repository/cashback.go:113-131 | the state becomes `WithAmount`; a failing update changes nothing |
| Queue.CashbackRepository.CreateCashbackHistory | internal/repository/cashback.go:45-78 | the state and answer are those of `Append`: one row with the next history id, or an error and no change |
| Queue.CashbackQueue.constructor | internal/queue/cashback_queue.go:41-52 | a new queue has an empty lock registry over the given store |
| Queue.CashbackQueue.LockFor | internal/queue/cashback_queue.go:56-62 | afterwards the user has a lock; an existing lock is returned and never replaced; a new lock differs from every registered one; the registry only grows |
| Queue.CashbackQueue.HandleIncrease | internal/queue/cashback_queue.go:81-112 | the store and reply afterwards are `IncreaseStep` of the store before |
| Queue.CashbackQueue.HandleDecrease | internal/queue/cashback_queue.go:114-141 | the store and reply afterwards are `DecreaseStep` of the store before |
| Queue.CashbackQueue.ProcessOne | internal/queue/cashback_queue.go:55-77 | one iteration: the user gains a lock, other locks are kept, and the store and the single reply are `Dispatch` of the store before, unknown types included |
| Queue.CashbackQueue.Process | internal/queue/cashback_queue.go:54-79 | the store and the replies are `Run` of the initial store over the operations in FIFO order; the registry gains exactly the users of the operations |
| Queue.CashbackQueue.Enqueue | internal/queue/cashback_queue.go:143-158 | the caller gets the reply of its operation with the given type, request and source id, and the store is `Dispatch` of the store before |
| Sources.FindBySlug | internal/repository/source.go:43-74 | no answer exactly when no row has the slug; an answer is a row with that slug |
| Sources.FindOrCreate | internal/service/source.go:23-50 | a zero turon id, a failing lookup or a failing insert is its own wrapped error with the table unchanged; an existing turon source is returned as it is; otherwise exactly one turon source with the caller's host and the next id is appended and returned |
| Sources.FindOrCreateValid | internal/service/source.go:39-49 | slugs stay unique: a source is only created when none has the slug |
| Sources.FindOrCreateIdempotent | internal/service/source.go:31-37 | after one successful call, a second call with a working lookup returns the same source and changes nothing |
| Sources.FirstMatchIsUnique | internal/repository/source.go:43-74 | with unique slugs the lookup returns the one row with the slug |
| Sources.SourceRepository.GetSourceBySlug | internal/repository/source.go:43-74 | a failing store answers an error, otherwise `FindBySlug` of its rows |
| Sources.SourceRepository.CreateSource | internal/repository/source.go:17-41 | the row is appended with the next serial id, which the returned source carries; a failing insert changes nothing |
| Sources.SourceService.FindSourceOrCreate | internal/service/source.go:23-50 | the table and answer afterwards are `FindOrCreate` of the table before |
| Queries.ReplaceAll | internal/repository/cashback.go:245-247 | replacing a pattern by itself returns the string unchanged |
| Queries.ReplaceAllAbsent | internal/repository/cashback.go:245-247 | replacing a pattern that occurs nowhere returns the string unchanged |
| Queries.ReplaceAllLength | internal/repository/cashback.go:245-247 | the result's length changes by (len(new) - len(old)) per non-overlapping occurrence |
| Queries.Decimal | internal/repository/cashback.go:238 | the text of a position is at least one decimal digit |
| Queries.DecimalRoundTrip | internal/repository/cashback.go:238 | the decimal text of a position reads back as that position |
| Queries.PlaceholderInjective | internal/repository/cashback.go:238 | different positions get different `$n` placeholders |
| Queries.Substitute | internal/repository/cashback.go:237-241 | the query after the keys, in the given order, are replaced by `$1`, `$2`, …; keys none of which occurs in the query leave it unchanged, whatever the order |
| Queries.SingleEntryOrder | internal/repository/cashback.go:237-241 | a one-entry map is named in the only possible way: one key, one positional argument, its value |
| Queries.FirstPlaceholder | internal/repository/cashback.go:238 | the first position's placeholder is `$1` |
| Queries.BuildNamedQuery | internal/repository/cashback.go:233-243 | for the visiting order chosen, each key is replaced in turn by `$1`, `$2`, …; there is one positional argument per map entry, the i-th being the value of the key replaced by `$i`; an empty map leaves the query unchanged with no arguments |
| Queries.WithDates | internal/repository/cashback.go:133-143 | empty dates add nothing; a given date sets its key to the date; no other entry changes |
| Queries.WithDatesIdempotent | internal/repository/cashback.go:193 | adding the date filters a second time (as the page query does) leaves the map unchanged |
| Queries.BuildDateFilters | internal/repository/cashback.go:133-143 | the from clause, then the to clause, are appended exactly for the dates given, and the map becomes `WithDates` |
| Queries.BuildPagination | internal/repository/cashback.go:145-150 | the ordering and paging clause is appended, and `$limit$` and `$offset$` are set to the record's Limit and Offset |
| Queries.PageTotal | internal/repository/cashback.go:174 | the page total is an int64; when nothing wraps it is the ceiling of total / size: 0 exactly for 0 items, and (r-1)*size < total <= r*size |
| Queries.CeilingDivision | internal/repository/cashback.go:174 | truncated division of total + size - 1 by size is the ceiling of total / size |
| Queries.CountWithoutDates | internal/repository/cashback.go:153-166 | without dates the count query has exactly one argument, the user id, and its placeholder is rewritten to `$1` |
| Queries.NamedCountQuery | internal/repository/cashback.go:153-166 | the shared map holds exactly the user id and the dates given, and the count query and its arguments are what buildNamedQuery makes of the count text with its date clauses and that map, for some visiting order: each argument is the value of the key replaced by its position |
| Queries.NamedPageQuery | internal/repository/cashback.go:176-196 | the shared map gains limit and offset, and the page query and its arguments are what buildNamedQuery makes of the select text with its date and paging clauses and that map, argument by argument |
| Queries.RecordCount | internal/repository/cashback.go:173-174 | ItemTotal becomes the count and PageTotal its page total; the other fields are untouched |
| Queries.GetCashbackHistoryByUserID | internal/repository/cashback.go:152-196 | a failed count is a wrapped error with the record untouched; otherwise ItemTotal becomes the count and PageTotal its page total, and both queries, with their arguments in placeholder order, are named from the filter map and from the filter map plus the record's limit and offset |
| Service.ValidateDates | internal/service/cashback.go:81-93 | dates pass exactly when each is empty or parses; a bad from-date is reported before a bad to-date |
| Service.Clamped | internal/service/cashback.go:95-106 | page is at least 1 and size is in [1, 100]; in-range values are kept; below 1 becomes 10, above 100 becomes 100; other fields are untouched |
| Service.ClampStable | internal/service/cashback.go:73-77 | clamping is idempotent, and Calculate changes neither page nor size of a clamped record |
| Service.ClampThenCalculate | internal/service/cashback.go:73-77 | after clamp and Calculate, limit equals size and lies in [1, 100]; offset is (page-1)*size and non-negative for every page up to 92233720368547759, where (page-1)*100 still fits in int64 |
| Service.Submission | internal/service/cashback.go:35-59 | a request naming both users is refused with nothing changed; a failed source resolution is a wrapped error with the ledger unchanged and the source table as the resolution left it; a successful call has resolved a source |
| Service.SubmissionEffect | internal/service/cashback.go:35-59 | once the source is resolved, the ledger and reply are those of the queue on the request tagged with the source's id; with a working append, an accepted call moves the user's amount by the signed amount, leaves others alone and appends one row with the source's id, the type and the amount; a refused one changes nothing |
| Service.CineramaOnlyRejected | internal/service/cashback.go:40-43 | a request without a turon id fails with the error "failed to determine source: cannot determine source slug: turon_user_id must be provided" and changes nothing |
| Service.SubmissionValid | internal/service/cashback.go:35-59 | increase and decrease keep ledger ids distinct and source slugs unique |
| Service.IncreaseThenDecrease | internal/service/cashback.go:35-59 | on empty stores: an increase of 100 creates the turon source and a balance of 100; a decrease of 30 leaves 70 with two history rows; a decrease of 71 is refused with nothing changed |
| Service.CashbackService.constructor | internal/service/cashback.go:27-33 | the queue is built over the service's store |
| Service.CashbackService.Submit | internal/service/cashback.go:35-59 | both stores and the reply afterwards are `Submission` of the stores before; the queue's lock registry gains at most the request's user, never replaces a lock, and is untouched when the guard or the source resolution refuses the call |
| Service.CashbackService.IncreaseCashback | internal/service/cashback.go:35-46 | `Submission` with the Increase type; the lock registry as for `Submit` |
| Service.CashbackService.DecreaseCashback | internal/service/cashback.go:48-59 | `Submission` with the Decrease type; the lock registry as for `Submit` |
| Service.CashbackService.GetCashbackByUserID | internal/service/cashback.go:61-66 | bad dates are refused before the store is asked; otherwise the store's answer for the user |
| Service.CashbackService.ValidatePagination | internal/service/cashback.go:95-106 | never fails, and the record becomes `Clamped` of itself |
| Service.CashbackService.GetCashbackHistoryByUserID | internal/service/cashback.go:68-79 | bad dates are refused with the record untouched; otherwise the record is clamped and calculated before the repository records the totals, and both queries are named argument by argument from the filters and from the filters plus the calculated limit and offset |

## Findings

| source | as written | input that shows it | evidently intended | confidence | as-written member | corrected member |
|---|---|---|---|---|---|---|
| internal/queue/cashback_queue.go:109 | the history row's type is `req.Type` (here and at line 138), which internal/handler/cashback.go:55,83 fill with the User-Agent header | a balance of 5, then an increase of 5 and a decrease of 5 from the same browser: both rows hold the same amount and type, yet the balances are 10 and 0 | the operation type, `increase` or `decrease` (models/cashback.go:23 gives `increase` as the column's example and keeps the browser in a separate `Device` field at line 22; the request struct at models/cashback.go:29-35 has `Device` and no `Type` field, so the handler and queue as shown assume a field the struct lacks, and the model assumes it too) | medium, not executed | Ledger.HistoryLosesDirection | Ledger.Dispatch |

The queue, the service and the replay invariant (`Ledger.RunConsistent`)
use the corrected behaviour. As written, no history can be replayed, since
a row does not say whether its amount was added or taken.

## Left out

- Goroutines, channels, `sync.Mutex` and `sync.RWMutex`. The single consumer is modelled as applying operations one at a time in FIFO order. `Enqueue` returns the reply of its own operation. Locks are numbers in a map, and lock eviction does not exist in the code.
- The channel capacity of 1000 and blocking sends: backpressure is a concurrency matter.
- `float64` amounts and their rounding: amounts are integers.
- SQL execution, `Scan`, row iteration and `rows.Err()`. The stores are in-memory maps and sequences. The history read stops once both queries are built; the database's count is a parameter, and the returned rows, their scan errors and the page query's failure are not modelled.
- `time.Now` timestamps (`created_at`, `updated_at`) and soft deletion (`deleted_at`): no store call sets them.
- `time.Parse` with the layout `2006-01-02`: it is the uninterpreted predicate `isDate`.
- The exact SQL text of the queries: condensed constant strings stand for them.
- Go's random map iteration order: `BuildNamedQuery` is proved for whichever order the loop picks.
- Store failures are one fixed `Fault` per store that always fails the same call. Errors from Postgres are the single error `Database`.
- Errors.Message: the text of `Database` is a placeholder; Go passes on the Postgres driver's own message, which the model does not know.
- `internal/handler/cashback.go` (HTTP binding, client IP, JSON), `cmd/main.go` and `config/config.go` are not part of this model.
- `internal/interfaces/interfaces.go` and `internal/core/interfaces.go` only declare interfaces, whose signatures disagree; the model uses the implementations.
- `CashbackRequest.Device` is never read by the core; the User-Agent reaches the model only as the request's `userAgent`.
- Retrying a source creation after a concurrent insert does not exist in the code, and the model has none.
- Queries.PageTotal: requires a page size of at least 1, which holds after Calculate; Go would panic on a zero divisor.
- Queries.GetCashbackHistoryByUserID: requires a page size of at least 1, as above; the service always calls it after Calculate.

=== FILE: errors.dfy ===
/** The errors the service produces, one constructor per distinct Go error,
    with the wrapping done by `fmt.Errorf("...: %w", err)` kept as nesting. */
module Errors {

  datatype Error =
    | OnlyOneUserId                    // service guard on both ids
    | DetermineSource(cause: Error)    // "failed to determine source: %w"
    | NoSourceSlug                     // turon id missing in FindSourceOrCreate
    | GetSourceFailed(cause: Error)    // "failed to get source by slug: %w"
    | CreateSourceFailed(cause: Error) // "failed to create source: %w"
    | NoCashbackFound
    | InsufficientCashback
    | UnknownOperation
    | InvalidFromDate
    | InvalidToDate
    | TotalCountFailed(cause: Error)   // "failed to get total count: %w"
    | Database                         // any failure reported by Postgres

  /** The text Go's `err.Error()` yields for each error. `Database` stands
      for whatever the Postgres driver reports; its text here is a
      placeholder, not the driver's. Wrapping with `%w` prefixes the
      wrapper's text, so a wrapped message ends with its cause's message. */
  function Message(e: Error): (r: string)
    ensures |r| > 0
    ensures e.DetermineSource? || e.GetSourceFailed? || e.CreateSourceFailed? || e.TotalCountFailed? ==>
      |Message(e.cause)| < |r| && r[|r| - |Message(e.cause)|..] == Message(e.cause)
  {
    match e
    case OnlyOneUserId => "only one of turon_user_id or cinerama_user_id should be provided"
    case DetermineSource(c) => "failed to determine source: " + Message(c)
    case NoSourceSlug => "cannot determine source slug: turon_user_id must be provided"
    case GetSourceFailed(c) => "failed to get source by slug: " + Message(c)
    case CreateSourceFailed(c) => "failed to create source: " + Message(c)
    case NoCashbackFound => "no cashback found for user"
    case InsufficientCashback => "insufficient cashback amount"
    case UnknownOperation => "unknown operation type"
    case InvalidFromDate => "invalid from_date format. Use YYYY-MM-DD"
    case InvalidToDate => "invalid to_date format. Use YYYY-MM-DD"
    case TotalCountFailed(c) => "failed to get total count: " + Message(c)
    case Database => "database error"
  }
}

=== FILE: int64.dfy ===
/** Go's int64: range, two's-complement wrap-around of `+`, `-`, `*`, and
    division that truncates toward zero. */
module Int64 {

  const MinInt64: int := -0x8000_0000_0000_0000
  const MaxInt64: int := 0x7fff_ffff_ffff_ffff
  const Modulus: int := 0x1_0000_0000_0000_0000

  predicate InInt64(x: int)
  {
    MinInt64 <= x <= MaxInt64
  }

  /** The int64 a Go arithmetic expression with exact value `x` yields. */
  function Wrap64(x: int): (r: int)
    ensures InInt64(r)
    ensures InInt64(x) ==> r == x
    ensures (x - r) % Modulus == 0
  {
    var m := x % Modulus;
    if m > MaxInt64 then m - Modulus else m
  }

  /** Go's `a / b` for `b > 0`: the quotient truncated toward zero. */
  function GoDiv(a: int, b: int): (q: int)
    requires b > 0
    ensures a >= 0 ==> q * b <= a < q * b + b
    ensures a < 0 ==> q * b - b < a <= q * b
  {
    if a >= 0 then a / b else -((-a) / b)
  }
}

=== FILE: ledger.dfy ===
/** The cashback ledger as values: balances keyed by turon user id, the
    append-only history, and the business rules of handleIncrease and
    handleDecrease (internal/queue/cashback_queue.go) as functions of the
    store state. The store's own failures are driven by a Fault value that
    names the one repository call that fails. */
module Ledger {
  import opened Wrappers
  import opened Errors

  /** Operation type constants; any other string is an unknown type. */
  const Increase: string := "increase"
  const Decrease: string := "decrease"

  /** models.CashbackRequest, with the amount in minor units. `userAgent`
      stands for the `Type` field the HTTP handler writes from the
      User-Agent header and the queue reads; the struct in
      models/cashback.go declares no such field, so the model assumes it. */
  datatype Request = Request(turonUserId: int, cineramaUserId: int, amount: int, hostIp: string, userAgent: string)

  /** A request together with the id of its resolved source. */
  datatype QueueRequest = QueueRequest(request: Request, sourceId: int)

  /** One item of the operations channel (its reply channel is the reply
      the dispatcher returns). */
  datatype Operation = Operation(kind: string, request: QueueRequest)

  function UserOf(op: Operation): int
  {
    op.request.request.turonUserId
  }

  function AmountOf(op: Operation): int
  {
    op.request.request.amount
  }

  /** A cashback row: its store id and current amount. */
  datatype Balance = Balance(id: int, amount: int)

  /** A cashback_history row. */
  datatype HistoryEntry = HistoryEntry(id: int, cashbackId: int, sourceId: int, amount: int, hostIp: string, kind: string)

  /** The cashback and cashback_history tables, with the next serial ids. */
  datatype State = State(balances: map<int, Balance>, history: seq<HistoryEntry>, nextBalanceId: int, nextHistoryId: int)

  /** Which repository call fails, if any. */
  datatype Fault = Healthy | FailLookup | FailCreate | FailUpdate | FailAppend

  /** The state after one operation, and the error sent on its reply channel. */
  datatype Step = Step(state: State, reply: Outcome<Error>)

  /** The result of applying a sequence of operations in FIFO order. */
  datatype Trace = Trace(state: State, replies: seq<Outcome<Error>>)

  const Empty: State := State(map[], [], 1, 1)

  /** Balance ids are below the next serial id and distinct; history rows
      only reference ids already handed out. */
  ghost predicate Valid(s: State)
  {
    && (forall u :: u in s.balances ==> s.balances[u].id < s.nextBalanceId)
    && (forall u, v :: u in s.balances && v in s.balances && u != v ==> s.balances[u].id != s.balances[v].id)
    && (forall i :: 0 <= i < |s.history| ==> s.history[i].cashbackId < s.nextBalanceId)
  }

  /** The amount held for a user; a user without a row holds nothing. */
  function Amount(s: State, u: int): int
  {
    if u in s.balances then s.balances[u].amount else 0
  }

  // ---------------------------------------------------------------------
  // The repository calls, each on a healthy store.

  /** CreateCashback: a new row with the next serial id. */
  function WithBalance(s: State, u: int, amount: int): (r: State)
    ensures r.balances == s.balances[u := Balance(s.nextBalanceId, amount)]
    ensures r.history == s.history && r.nextBalanceId == s.nextBalanceId + 1
  {
    s.(balances := s.balances[u := Balance(s.nextBalanceId, amount)], nextBalanceId := s.nextBalanceId + 1)
  }

  /** UpdateCashbackAmount: `UPDATE cashback SET cashback_amount = .. WHERE id = ..`. */
  function WithAmount(s: State, id: int, amount: int): (r: State)
    ensures r.balances.Keys == s.balances.Keys
    ensures forall u :: u in s.balances && s.balances[u].id != id ==> r.balances[u] == s.balances[u]
    ensures forall u :: u in s.balances && s.balances[u].id == id ==> r.balances[u] == Balance(id, amount)
    ensures forall u :: u in s.balances ==> r.balances[u].id == s.balances[u].id
    ensures r.history == s.history && r.nextBalanceId == s.nextBalanceId
  {
    s.(balances := map u | u in s.balances :: if s.balances[u].id == id then Balance(id, amount) else s.balances[u])
  }

  /** The history row an accepted operation appends. */
  function EntryFor(s: State, cashbackId: int, q: QueueRequest, kind: string): HistoryEntry
  {
    HistoryEntry(s.nextHistoryId, cashbackId, q.sourceId, q.request.amount, q.request.hostIp, kind)
  }

  /** CreateCashbackHistory, the last call of both handlers. */
  function Append(s: State, cashbackId: int, q: QueueRequest, kind: string, fault: Fault): (r: Step)
    ensures fault == FailAppend ==> r == Step(s, Fail(Database))
    ensures fault != FailAppend ==>
      && r.reply == Pass
      && r.state.balances == s.balances && r.state.nextBalanceId == s.nextBalanceId
      && r.state.history == s.history + [EntryFor(s, cashbackId, q, kind)]
      && r.state.nextHistoryId == s.nextHistoryId + 1
  {
    if fault == FailAppend then Step(s, Fail(Database))
    else Step(s.(history := s.history + [EntryFor(s, cashbackId, q, kind)], nextHistoryId := s.nextHistoryId + 1), Pass)
  }

  // ---------------------------------------------------------------------
  // The handlers and the dispatcher.

  /** handleIncrease: create the balance with the request amount, or add the
      request amount to it, then append one history row. */
  function IncreaseStep(s: State, q: QueueRequest, kind: string, fault: Fault): (r: Step)
    ensures fault == FailLookup ==> r == Step(s, Fail(Database))
    ensures fault == Healthy ==> r.reply == Pass
    ensures r.reply.Fail? && fault != FailAppend ==> r.state == s
    ensures var u := q.request.turonUserId;
      r.reply.Pass? ==>
        && u in r.state.balances
        && Amount(r.state, u) == Amount(s, u) + q.request.amount
        && (u !in s.balances ==> r.state.balances[u] == Balance(s.nextBalanceId, q.request.amount))
        && r.state.history == s.history + [EntryFor(s, r.state.balances[u].id, q, kind)]
  {
    var u := q.request.turonUserId;
    if fault == FailLookup then Step(s, Fail(Database))
    else if u !in s.balances then
      if fault == FailCreate then Step(s, Fail(Database))
      else Append(WithBalance(s, u, q.request.amount), s.nextBalanceId, q, kind, fault)
    else
      var b := s.balances[u];
      if fault == FailUpdate then Step(s, Fail(Database))
      else Append(WithAmount(s, b.id, b.amount + q.request.amount), b.id, q, kind, fault)
  }

  /** handleDecrease: refuse a missing or too small balance, otherwise
      subtract and append one history row. */
  function DecreaseStep(s: State, q: QueueRequest, kind: string, fault: Fault): (r: Step)
    ensures fault == FailLookup ==> r == Step(s, Fail(Database))
    ensures var u := q.request.turonUserId;
      fault != FailLookup && u !in s.balances ==> r == Step(s, Fail(NoCashbackFound))
    ensures var u := q.request.turonUserId;
      fault != FailLookup && u in s.balances && s.balances[u].amount < q.request.amount ==>
        r == Step(s, Fail(InsufficientCashback))
    ensures var u := q.request.turonUserId;
      fault == Healthy && u in s.balances && s.balances[u].amount >= q.request.amount ==> r.reply == Pass
    ensures r.reply.Fail? && fault != FailAppend ==> r.state == s
    ensures var u := q.request.turonUserId;
      r.reply.Pass? ==>
        && u in s.balances && s.balances[u].amount >= q.request.amount
        && u in r.state.balances
        && Amount(r.state, u) == Amount(s, u) - q.request.amount
        && r.state.history == s.history + [EntryFor(s, s.balances[u].id, q, kind)]
  {
    var u := q.request.turonUserId;
    if fault == FailLookup then Step(s, Fail(Database))
    else if u !in s.balances then Step(s, Fail(NoCashbackFound))
    else
      var b := s.balances[u];
      if b.amount < q.request.amount then Step(s, Fail(InsufficientCashback))
      else if fault == FailUpdate then Step(s, Fail(Database))
      else Append(WithAmount(s, b.id, b.amount - q.request.amount), b.id, q, kind, fault)
  }

  /** The switch on the operation type in process. The history row records
      the operation type; DispatchAsWritten below stores what the code
      stores instead. */
  function Dispatch(s: State, op: Operation, fault: Fault): (r: Step)
    ensures op.kind != Increase && op.kind != Decrease ==> r == Step(s, Fail(UnknownOperation))
    ensures r.reply.Fail? && fault != FailAppend ==> r.state == s
  {
    if op.kind == Increase then IncreaseStep(s, op.request, op.kind, fault)
    else if op.kind == Decrease then DecreaseStep(s, op.request, op.kind, fault)
    else Step(s, Fail(UnknownOperation))
  }

  /** The single consumer draining the channel: operations in FIFO order,
      one reply each. */
  function Run(s: State, ops: seq<Operation>, fault: Fault): (r: Trace)
    ensures |r.replies| == |ops|
    decreases |ops|
  {
    if ops == [] then Trace(s, [])
    else
      var t := Run(s, ops[..|ops| - 1], fault);
      var st := Dispatch(t.state, ops[|ops| - 1], fault);
      Trace(st.state, t.replies + [st.reply])
  }

  // ---------------------------------------------------------------------
  // Specification vocabulary.

  /** The signed change an operation makes when accepted. */
  function Delta(op: Operation): int
  {
    if op.kind == Decrease then -AmountOf(op) else AmountOf(op)
  }

  /** The signed change a history row records. */
  function Signed(e: HistoryEntry): int
  {
    if e.kind == Decrease then -e.amount else e.amount
  }

  /** A history row carries the operation's amount, source, host and type. */
  predicate Records(e: HistoryEntry, op: Operation)
  {
    e.amount == AmountOf(op) && e.sourceId == op.request.sourceId
    && e.hostIp == op.request.request.hostIp && e.kind == op.kind
  }

  /** Whether a healthy store accepts the operation in state s. */
  predicate Accepts(s: State, op: Operation)
  {
    op.kind == Increase
    || (op.kind == Decrease && UserOf(op) in s.balances && s.balances[UserOf(op)].amount >= AmountOf(op))
  }

  /** The operations that were accepted, in the order they were applied:
      every operation answered with Pass is among them, and each of them
      was answered with Pass. */
  function Accepted(ops: seq<Operation>, replies: seq<Outcome<Error>>): (acc: seq<Operation>)
    requires |ops| == |replies|
    ensures forall k :: 0 <= k < |ops| && replies[k].Pass? ==> ops[k] in acc
    ensures forall x :: x in acc ==> exists k :: 0 <= k < |ops| && replies[k].Pass? && ops[k] == x
    decreases |ops|
  {
    if ops == [] then []
    else
      var n := |ops| - 1;
      Accepted(ops[..n], replies[..n]) + (if replies[n].Pass? then [ops[n]] else [])
  }

  /** The sum of the signed changes of the operations on one user. */
  function UserDelta(ops: seq<Operation>, u: int): int
    decreases |ops|
  {
    if ops == [] then 0
    else
      var n := |ops| - 1;
      UserDelta(ops[..n], u) + (if UserOf(ops[n]) == u then Delta(ops[n]) else 0)
  }

  /** The sum of the signed history rows that reference one balance id. */
  function Replay(h: seq<HistoryEntry>, id: int): int
    decreases |h|
  {
    if h == [] then 0
    else
      var n := |h| - 1;
      Replay(h[..n], id) + (if h[n].cashbackId == id then Signed(h[n]) else 0)
  }

  /** Every balance equals the replay of its history rows from zero. */
  ghost predicate Consistent(s: State)
  {
    Valid(s) && forall u :: u in s.balances ==> s.balances[u].amount == Replay(s.history, s.balances[u].id)
  }

  predicate NonNegative(s: State)
  {
    forall u :: u in s.balances ==> s.balances[u].amount >= 0
  }

  predicate AmountsNonNegative(ops: seq<Operation>)
  {
    forall i :: 0 <= i < |ops| ==> AmountOf(ops[i]) >= 0
  }

  // ---------------------------------------------------------------------
  // One operation.

  /** Updating by id on a valid store changes only the owner's row. */
  lemma WithAmountOwner(s: State, u: int, amount: int)
    requires Valid(s) && u in s.balances
    ensures WithAmount(s, s.balances[u].id, amount).balances == s.balances[u := Balance(s.balances[u].id, amount)]
  {
    var r := WithAmount(s, s.balances[u].id, amount).balances;
    var m := s.balances[u := Balance(s.balances[u].id, amount)];
    assert r.Keys == m.Keys;
    forall v | v in r
      ensures r[v] == m[v]
    {
      if v != u {
        assert s.balances[v].id != s.balances[u].id;
      }
    }
  }

  lemma WithBalanceValid(s: State, u: int, amount: int)
    requires Valid(s)
    ensures Valid(WithBalance(s, u, amount))
  {
  }

  lemma WithAmountValid(s: State, id: int, amount: int)
    requires Valid(s)
    ensures Valid(WithAmount(s, id, amount))
  {
    var r := WithAmount(s, id, amount);
    assert forall u :: u in r.balances ==> r.balances[u].id == s.balances[u].id;
  }

  lemma AppendValid(s: State, cashbackId: int, q: QueueRequest, kind: string, fault: Fault)
    requires Valid(s) && cashbackId < s.nextBalanceId
    ensures var r := Append(s, cashbackId, q, kind, fault).state;
      Valid(r) && |r.history| >= |s.history| && r.history[..|s.history|] == s.history
  {
    var r := Append(s, cashbackId, q, kind, fault).state;
    assert r.history[..|s.history|] == s.history;
  }

  /** Every operation keeps the store well formed, whatever call fails, and
      never rewrites history. */
  lemma DispatchValid(s: State, op: Operation, fault: Fault)
    requires Valid(s)
    ensures var r := Dispatch(s, op, fault).state;
      Valid(r) && |r.history| >= |s.history| && r.history[..|s.history|] == s.history
  {
    var u := UserOf(op);
    var q := op.request;
    if (op.kind != Increase && op.kind != Decrease) || fault == FailLookup {
      assert Dispatch(s, op, fault).state == s;
    } else if u !in s.balances {
      if op.kind == Increase && fault != FailCreate {
        var s1 := WithBalance(s, u, AmountOf(op));
        WithBalanceValid(s, u, AmountOf(op));
        AppendValid(s1, s.nextBalanceId, q, op.kind, fault);
      } else {
        assert Dispatch(s, op, fault).state == s;
      }
    } else {
      var b := s.balances[u];
      var newAmount := if op.kind == Increase then b.amount + AmountOf(op) else b.amount - AmountOf(op);
      if fault == FailUpdate || (op.kind == Decrease && b.amount < AmountOf(op)) {
        assert Dispatch(s, op, fault).state == s;
      } else {
        var s1 := WithAmount(s, b.id, newAmount);
        WithAmountValid(s, b.id, newAmount);
        AppendValid(s1, b.id, q, op.kind, fault);
        assert Dispatch(s, op, fault) == Append(s1, b.id, q, op.kind, fault);
      }
    }
  }

  /** What one operation does on a store whose history append succeeds: a
      failed lookup, an unknown type, a missing balance and an insufficient
      balance are each refused with their own error; a rejected operation
      changes nothing; an accepted one moves its user's
      amount by its signed delta, leaves every other user's amount alone and
      appends exactly one history row recording it against the user's
      balance. On a healthy store, acceptance is exactly Accepts. */
  lemma DispatchEffect(s: State, op: Operation, fault: Fault)
    requires Valid(s) && fault != FailAppend
    ensures var st := Dispatch(s, op, fault);
      && (st.reply.Fail? ==> st.state == s)
      && (fault == Healthy ==> (st.reply.Pass? <==> Accepts(s, op)))
      && (st.reply.Pass? ==>
            && Amount(st.state, UserOf(op)) == Amount(s, UserOf(op)) + Delta(op)
            && UserOf(op) in st.state.balances
            && |st.state.history| == |s.history| + 1
            && st.state.history[..|s.history|] == s.history
            && Records(st.state.history[|s.history|], op)
            && st.state.history[|s.history|].cashbackId == st.state.balances[UserOf(op)].id)
      && (forall v :: v != UserOf(op) ==> Amount(st.state, v) == Amount(s, v))
      && (op.kind != Increase && op.kind != Decrease ==> st == Step(s, Fail(UnknownOperation)))
      && ((op.kind == Increase || op.kind == Decrease) && fault == FailLookup ==> st == Step(s, Fail(Database)))
      && (op.kind == Decrease && fault != FailLookup && UserOf(op) !in s.balances ==>
            st == Step(s, Fail(NoCashbackFound)))
      && ((op.kind == Decrease && fault != FailLookup && UserOf(op) in s.balances
           && s.balances[UserOf(op)].amount < AmountOf(op)) ==> st == Step(s, Fail(InsufficientCashback)))
  {
    var u := UserOf(op);
    if op.kind in {Increase, Decrease} && u in s.balances {
      WithAmountOwner(s, u, s.balances[u].amount + AmountOf(op));
      WithAmountOwner(s, u, s.balances[u].amount - AmountOf(op));
    }
  }

  /** The append-only replay invariant survives every operation whose
      history append does not fail. */
  lemma DispatchConsistent(s: State, op: Operation, fault: Fault)
    requires Consistent(s) && fault != FailAppend
    ensures Consistent(Dispatch(s, op, fault).state)
  {
    DispatchValid(s, op, fault);
    DispatchEffect(s, op, fault);
    var st := Dispatch(s, op, fault);
    if st.reply.Pass? {
      var u := UserOf(op);
      var r := st.state;
      var e := r.history[|s.history|];
      assert r.history == s.history + [e];
      forall v | v in r.balances
        ensures r.balances[v].amount == Replay(r.history, r.balances[v].id)
      {
        assert Replay(r.history, r.balances[v].id)
          == Replay(s.history, r.balances[v].id) + (if e.cashbackId == r.balances[v].id then Signed(e) else 0);
        if v == u {
          if u !in s.balances {
            ReplayUnreferenced(s.history, r.balances[u].id);
          }
        } else {
          assert v in s.balances && r.balances[v] == s.balances[v];
        }
      }
    }
  }

  /** No history row references an id that has not been handed out. */
  lemma {:induction false} ReplayUnreferenced(h: seq<HistoryEntry>, id: int)
    requires forall i :: 0 <= i < |h| ==> h[i].cashbackId < id
    ensures Replay(h, id) == 0
    decreases |h|
  {
    if h != [] {
      ReplayUnreferenced(h[..|h| - 1], id);
    }
  }

  /** The store has no transaction: when the history append fails after the
      balance was written, the balance moves while no row records it, and
      the replay invariant breaks. */
  lemma AppendFailureLosesHistory()
    ensures var op := Operation(Increase, QueueRequest(Request(42, 0, 500, "10.0.0.1", ""), 1));
      var st := Dispatch(Empty, op, FailAppend);
      && st.reply == Fail(Database)
      && Amount(st.state, 42) == 500
      && st.state.history == []
      && Consistent(Empty) && !Consistent(st.state)
  {
    var op := Operation(Increase, QueueRequest(Request(42, 0, 500, "10.0.0.1", ""), 1));
    var st := Dispatch(Empty, op, FailAppend);
    assert st.state.balances[42] == Balance(1, 500);
    assert Replay(st.state.history, 1) == 0;
  }

  /** In general: when only the history append fails, an operation the
      store would accept is answered with a database error, yet its user's
      amount has moved by the operation's signed amount, every other user is
      untouched and no row was appended. */
  lemma AppendFailureMovesBalance(s: State, op: Operation)
    requires Valid(s) && Accepts(s, op)
    ensures var st := Dispatch(s, op, FailAppend);
      && st.reply == Fail(Database)
      && Amount(st.state, UserOf(op)) == Amount(s, UserOf(op)) + Delta(op)
      && (forall v :: v != UserOf(op) ==> Amount(st.state, v) == Amount(s, v))
      && st.state.history == s.history
  {
    var u := UserOf(op);
    if u in s.balances {
      WithAmountOwner(s, u, s.balances[u].amount + AmountOf(op));
      WithAmountOwner(s, u, s.balances[u].amount - AmountOf(op));
    }
  }

  /** A decrease never takes a balance below zero, but nothing stops a
      negative amount: increasing an empty balance by -1 leaves it at -1. */
  lemma NegativeIncreaseGoesBelowZero()
    ensures var op := Operation(Increase, QueueRequest(Request(7, 0, -1, "", ""), 1));
      var st := Dispatch(Empty, op, Healthy);
      st.reply == Pass && Amount(st.state, 7) == -1 && !NonNegative(st.state)
  {
    var st := Dispatch(Empty, Operation(Increase, QueueRequest(Request(7, 0, -1, "", ""), 1)), Healthy);
    assert st.state.balances[7] == Balance(1, -1);
  }

  /** The dispatcher as written: both handlers store the request's Type,
      which the HTTP handler set to the caller's User-Agent, in the history
      row's type column. Balances and replies are those of Dispatch; only
      that column differs. */
  function DispatchAsWritten(s: State, op: Operation, fault: Fault): (r: Step)
    ensures r.reply == Dispatch(s, op, fault).reply
    ensures r.state.balances == Dispatch(s, op, fault).state.balances
    ensures |r.state.history| == |Dispatch(s, op, fault).state.history|
  {
    var recorded := op.request.request.userAgent;
    if op.kind == Increase then IncreaseStep(s, op.request, recorded, fault)
    else if op.kind == Decrease then DecreaseStep(s, op.request, recorded, fault)
    else Step(s, Fail(UnknownOperation))
  }

  /** As written, the history does not record the direction of a change:
      from a balance of 5, an increase of 5 and a decrease of 5 sent by the
      same client append identical rows, yet leave 10 and 0. No reading of
      the history can recover the balance. With the operation type in the
      column (Dispatch), the two rows differ. */
  lemma HistoryLosesDirection()
    ensures var s := WithBalance(Empty, 7, 5);
      var q := QueueRequest(Request(7, 0, 5, "10.0.0.1", "Mozilla/5.0"), 1);
      var up := DispatchAsWritten(s, Operation(Increase, q), Healthy);
      var down := DispatchAsWritten(s, Operation(Decrease, q), Healthy);
      && up.reply == Pass && down.reply == Pass
      && up.state.history == down.state.history
      && Amount(up.state, 7) == 10 && Amount(down.state, 7) == 0
      && Dispatch(s, Operation(Increase, q), Healthy).state.history
         != Dispatch(s, Operation(Decrease, q), Healthy).state.history
  {
    var s := WithBalance(Empty, 7, 5);
    var q := QueueRequest(Request(7, 0, 5, "10.0.0.1", "Mozilla/5.0"), 1);
    assert s.balances[7] == Balance(1, 5);
    var up := Dispatch(s, Operation(Increase, q), Healthy);
    var down := Dispatch(s, Operation(Decrease, q), Healthy);
    assert up.state.history[0].kind == Increase;
    assert down.state.history[0].kind == Decrease;
  }

  // ---------------------------------------------------------------------
  // Sequences of operations.

  /** Every operation gets exactly one reply, in dequeue order: the k-th
      reply is the one the k-th operation gets from the state its
      predecessors left. */
  lemma {:induction false} RunReplies(s: State, ops: seq<Operation>, fault: Fault)
    ensures |Run(s, ops, fault).replies| == |ops|
    ensures forall k :: 0 <= k < |ops| ==>
      Run(s, ops, fault).replies[k] == Dispatch(Run(s, ops[..k], fault).state, ops[k], fault).reply
    decreases |ops|
  {
    if ops != [] {
      var n := |ops| - 1;
      var t0 := Run(s, ops[..n], fault);
      RunReplies(s, ops[..n], fault);
      var t := Run(s, ops, fault);
      assert t.replies == t0.replies + [Dispatch(t0.state, ops[n], fault).reply];
      forall k | 0 <= k < |ops|
        ensures t.replies[k] == Dispatch(Run(s, ops[..k], fault).state, ops[k], fault).reply
      {
        if k < n {
          assert t.replies[k] == t0.replies[k];
          assert ops[..n][..k] == ops[..k];
          assert ops[..n][k] == ops[k];
        } else {
          assert ops[..k] == ops[..n];
        }
      }
    }
  }

  /** Whatever store call fails, a well-formed store stays well formed and
      the history only grows. */
  lemma {:induction false} RunValid(s: State, ops: seq<Operation>, fault: Fault)
    requires Valid(s)
    ensures var r := Run(s, ops, fault).state;
      Valid(r) && |r.history| >= |s.history| && r.history[..|s.history|] == s.history
    decreases |ops|
  {
    if ops != [] {
      var n := |ops| - 1;
      RunValid(s, ops[..n], fault);
      var t := Run(s, ops[..n], fault);
      DispatchValid(t.state, ops[n], fault);
      var h := Run(s, ops, fault).state.history;
      assert h[..|t.state.history|] == t.state.history;
      assert h[..|s.history|] == t.state.history[..|s.history|];
    }
  }

  /** With non-negative amounts no sequence of operations, whatever call
      fails, drives a balance below zero. */
  lemma {:induction false} RunNonNegative(s: State, ops: seq<Operation>, fault: Fault)
    requires NonNegative(s) && AmountsNonNegative(ops)
    ensures NonNegative(Run(s, ops, fault).state)
    decreases |ops|
  {
    if ops != [] {
      var n := |ops| - 1;
      assert AmountsNonNegative(ops[..n]) by {
        forall i | 0 <= i < n ensures AmountOf(ops[..n][i]) >= 0 {
          assert ops[..n][i] == ops[i];
        }
      }
      RunNonNegative(s, ops[..n], fault);
      assert AmountOf(ops[n]) >= 0;
    }
  }

  /** Starting from s, the accepted operations acc account for r: each
      user's amount moved by the signed amounts of that user's operations,
      and the history gained exactly one row per operation, in order, each
      recording its operation against its user's balance. */
  ghost predicate Conserved(s: State, acc: seq<Operation>, r: State)
  {
    && (forall u :: Amount(r, u) == Amount(s, u) + UserDelta(acc, u))
    && |r.history| == |s.history| + |acc|
    && r.history[..|s.history|] == s.history
    && (forall k :: 0 <= k < |acc| ==> Records(r.history[|s.history| + k], acc[k]))
    && Owned(|s.history|, acc, r)
  }

  /** The rows from position base on are, one by one, against the balances
      of the users of acc. */
  ghost predicate Owned(base: nat, acc: seq<Operation>, r: State)
  {
    base + |acc| <= |r.history| &&
    forall k :: 0 <= k < |acc| ==>
      UserOf(acc[k]) in r.balances && r.history[base + k].cashbackId == r.balances[UserOf(acc[k])].id
  }

  /** Appending a row against op's user's balance, while no balance id
      changes, extends the ownership by op. */
  lemma OwnedStep(base: nat, acc: seq<Operation>, r: State, op: Operation, next: State)
    requires Owned(base, acc, r) && base + |acc| == |r.history|
    requires forall u :: u in r.balances ==> u in next.balances && next.balances[u].id == r.balances[u].id
    requires |next.history| == |r.history| + 1 && next.history[..|r.history|] == r.history
    requires UserOf(op) in next.balances && next.history[|r.history|].cashbackId == next.balances[UserOf(op)].id
    ensures Owned(base, acc + [op], next)
  {
    var acc' := acc + [op];
    forall k | 0 <= k < |acc'|
      ensures UserOf(acc'[k]) in next.balances && next.history[base + k].cashbackId == next.balances[UserOf(acc'[k])].id
    {
      if k < |acc| {
        assert acc'[k] == acc[k];
        assert next.history[base + k] == r.history[base + k];
      }
    }
  }

  /** No operation, under any fault, removes a balance or changes its id. */
  lemma DispatchKeepsIds(s: State, op: Operation, fault: Fault)
    ensures var r := Dispatch(s, op, fault).state;
      forall u :: u in s.balances ==> u in r.balances && r.balances[u].id == s.balances[u].id
  {
  }

  /** One more operation extends the account by itself exactly when it is
      accepted. */
  lemma ConservedStep(s: State, acc: seq<Operation>, r: State, op: Operation, fault: Fault)
    requires Valid(r) && fault != FailAppend && Conserved(s, acc, r)
    ensures var st := Dispatch(r, op, fault);
      Conserved(s, acc + (if st.reply.Pass? then [op] else []), st.state)
  {
    DispatchEffect(r, op, fault);
    var st := Dispatch(r, op, fault);
    if st.reply.Pass? {
      DispatchKeepsIds(r, op, fault);
      ConservedAccept(s, acc, r, op, st.state);
    } else {
      assert acc + [] == acc;
    }
  }

  /** An accepted operation's effect, as DispatchEffect states it, extends
      the account by that operation. */
  lemma ConservedAccept(s: State, acc: seq<Operation>, r: State, op: Operation, next: State)
    requires Conserved(s, acc, r)
    requires Amount(next, UserOf(op)) == Amount(r, UserOf(op)) + Delta(op)
    requires forall v :: v != UserOf(op) ==> Amount(next, v) == Amount(r, v)
    requires |next.history| == |r.history| + 1 && next.history[..|r.history|] == r.history
    requires Records(next.history[|r.history|], op)
    requires forall u :: u in r.balances ==> u in next.balances && next.balances[u].id == r.balances[u].id
    requires UserOf(op) in next.balances && next.history[|r.history|].cashbackId == next.balances[UserOf(op)].id
    ensures Conserved(s, acc + [op], next)
  {
    var acc' := acc + [op];
    var h := next.history;
    forall u
      ensures Amount(next, u) == Amount(s, u) + UserDelta(acc', u)
    {
      assert acc'[..|acc'| - 1] == acc;
    }
    assert h[..|s.history|] == r.history[..|s.history|];
    forall k | 0 <= k < |acc'|
      ensures Records(h[|s.history| + k], acc'[k])
    {
      if k < |acc| {
        assert h[|s.history| + k] == r.history[|s.history| + k];
      }
    }
    OwnedStep(|s.history|, acc, r, op, next);
  }

  /** Conservation: when history appends succeed, every user's final amount
      is the starting amount plus the signed deltas of that user's accepted
      operations; the history grows by exactly one row per accepted
      operation, in the order they were applied, each recording its
      operation. */
  lemma {:induction false} RunConservation(s: State, ops: seq<Operation>, fault: Fault)
    requires Valid(s) && fault != FailAppend
    ensures var t := Run(s, ops, fault);
      |t.replies| == |ops| && Conserved(s, Accepted(ops, t.replies), t.state)
    decreases |ops|
  {
    RunReplies(s, ops, fault);
    var t := Run(s, ops, fault);
    if ops == [] {
      assert s.history[..|s.history|] == s.history;
    } else {
      var n := |ops| - 1;
      var t0 := Run(s, ops[..n], fault);
      RunConservation(s, ops[..n], fault);
      RunValid(s, ops[..n], fault);
      ConservedStep(s, Accepted(ops[..n], t0.replies), t0.state, ops[n], fault);
      assert t.replies[..n] == t0.replies;
    }
  }

  /** The replay invariant holds after any sequence of operations whose
      history appends succeed, in particular from the empty store. */
  lemma {:induction false} RunConsistent(s: State, ops: seq<Operation>, fault: Fault)
    requires Consistent(s) && fault != FailAppend
    ensures Consistent(Run(s, ops, fault).state)
    decreases |ops|
  {
    if ops != [] {
      RunConsistent(s, ops[..|ops| - 1], fault);
      DispatchConsistent(Run(s, ops[..|ops| - 1], fault).state, ops[|ops| - 1], fault);
    }
  }

  lemma EmptyConsistent()
    ensures Consistent(Empty)
  {
  }

  /** When the initial balance lookup fails, every operation is answered
      with an error and nothing changes. */
  lemma {:induction false} RunLookupFailure(s: State, ops: seq<Operation>)
    ensures Run(s, ops, FailLookup).state == s
    ensures forall k :: 0 <= k < |Run(s, ops, FailLookup).replies| ==> Run(s, ops, FailLookup).replies[k].Fail?
    decreases |ops|
  {
    if ops != [] {
      RunLookupFailure(s, ops[..|ops| - 1]);
    }
  }
}

=== FILE: paging.dfy ===
/** models/pagination.go: the Pagination record and its Calculate method.
    All six fields are Go int64s; the offset product wraps like Go's. */
module Paging {
  import opened Int64

  /** The value of a Pagination record at one moment. */
  datatype PageInfo = PageInfo(limit: int, offset: int, page: int, pageSize: int, pageTotal: int, itemTotal: int)

  predicate InRange(v: PageInfo)
  {
    InInt64(v.limit) && InInt64(v.offset) && InInt64(v.page)
    && InInt64(v.pageSize) && InInt64(v.pageTotal) && InInt64(v.itemTotal)
  }

  /** Page number after Calculate's guard: at least 1, untouched when valid. */
  function NormalPage(page: int): (r: int)
    ensures r >= 1
    ensures page >= 1 ==> r == page
    ensures page < 1 ==> r == 1
  {
    if page < 1 then 1 else page
  }

  /** Page size after Calculate's guard: a non-positive size becomes the default 10. */
  function NormalPageSize(size: int): (r: int)
    ensures r >= 1
    ensures size >= 1 ==> r == size
    ensures size < 1 ==> r == 10
  {
    if size < 1 then 10 else size
  }

  lemma ProductNonNegative(a: int, b: int)
    requires a >= 0 && b >= 0
    ensures a * b >= 0
  {
  }

  /** The record after Calculate. */
  function Calculated(v: PageInfo): (r: PageInfo)
    ensures r.page >= 1 && r.pageSize >= 1
    ensures v.page >= 1 ==> r.page == v.page
    ensures v.pageSize >= 1 ==> r.pageSize == v.pageSize
    ensures r.limit == r.pageSize
    ensures (r.page - 1) * r.pageSize <= MaxInt64 ==> r.offset == (r.page - 1) * r.pageSize >= 0
    ensures r.pageTotal == v.pageTotal && r.itemTotal == v.itemTotal
    ensures InRange(v) ==> InRange(r)
  {
    var page := NormalPage(v.page);
    var size := NormalPageSize(v.pageSize);
    var product := (page - 1) * size;
    ProductNonNegative(page - 1, size);
    PageInfo(size, Wrap64(product), page, size, v.pageTotal, v.itemTotal)
  }

  /** Calculating twice gives the same record as calculating once. */
  lemma CalculateIdempotent(v: PageInfo)
    ensures Calculated(Calculated(v)) == Calculated(v)
  {
  }

  /** The product (Page - 1) * PageSize wraps: page 2^62 with 100 items per
      page yields a negative offset. */
  lemma OffsetWrapsForHugePage()
    ensures Calculated(PageInfo(0, 0, 0x4000_0000_0000_0000, 100, 0, 0)).offset == -100
  {
    var v := PageInfo(0, 0, 0x4000_0000_0000_0000, 100, 0, 0);
    assert (v.page - 1) * v.pageSize == 25 * Modulus - 100;
    assert (25 * Modulus - 100) % Modulus == Modulus - 100;
  }

  /** The Pagination struct, updated in place. */
  class Pagination {
    var limit: int
    var offset: int
    var page: int
    var pageSize: int
    var pageTotal: int
    var itemTotal: int

    function Value(): PageInfo
      reads this
    {
      PageInfo(limit, offset, page, pageSize, pageTotal, itemTotal)
    }

    /** Every field holds an int64. */
    ghost predicate Valid()
      reads this
    {
      InRange(Value())
    }

    constructor (v: PageInfo)
      ensures Value() == v
    {
      limit, offset, page, pageSize, pageTotal, itemTotal :=
        v.limit, v.offset, v.page, v.pageSize, v.pageTotal, v.itemTotal;
    }

    /** Normalises Page and PageSize, then derives Limit and Offset from them. */
    method Calculate()
      requires Valid()
      modifies this
      ensures Valid()
      ensures Value() == Calculated(old(Value()))
    {
      if page < 1 {
        page := 1;
      }
      if pageSize < 1 {
        pageSize := 10;
      }
      limit := pageSize;
      offset := Wrap64((page - 1) * pageSize);
    }
  }
}

=== FILE: queries.dfy ===
/** internal/repository/cashback.go: the helpers that build the history
    queries. Named `$key$` placeholders are rewritten to Postgres positional
    `$n` placeholders with an argument list in matching order; the date
    filter and pagination clauses are appended while their arguments are
    written into a shared argument map. */
module Queries {
  import opened Wrappers
  import opened Errors
  import opened Int64
  import opened Paging

  /** A query argument (Go's interface{} values used here). */
  datatype Arg = IntArg(i: int) | TextArg(s: string)

  // ---------------------------------------------------------------------
  // replaceAll: strings.ReplaceAll.

  /** Non-overlapping occurrences of pat, left to right, replaced by rep. An
      empty pat matches at the start and after every character. Replacing a
      pattern by itself changes nothing. */
  function ReplaceAll(s: string, pat: string, rep: string): (r: string)
    ensures pat == rep ==> r == s
    decreases |s|
  {
    if pat == [] then
      if s == [] then rep else rep + [s[0]] + ReplaceAll(s[1..], pat, rep)
    else if |s| < |pat| then s
    else if s[..|pat|] == pat then rep + ReplaceAll(s[|pat|..], pat, rep)
    else [s[0]] + ReplaceAll(s[1..], pat, rep)
  }

  predicate OccursAt(s: string, pat: string, i: nat)
  {
    i + |pat| <= |s| && s[i..i + |pat|] == pat
  }

  /** The number of replacements ReplaceAll makes for a non-empty pat. */
  function Count(s: string, pat: string): nat
    requires pat != []
    decreases |s|
  {
    if |s| < |pat| then 0
    else if s[..|pat|] == pat then 1 + Count(s[|pat|..], pat)
    else Count(s[1..], pat)
  }

  /** A pattern that does not occur leaves the string unchanged. */
  lemma {:induction false} ReplaceAllAbsent(s: string, pat: string, rep: string)
    requires forall i: nat :: !OccursAt(s, pat, i)
    ensures ReplaceAll(s, pat, rep) == s
    decreases |s|
  {
    assert !OccursAt(s, pat, 0);
    if |s| >= |pat| {
      forall i: nat
        ensures !OccursAt(s[1..], pat, i)
      {
        assert !OccursAt(s, pat, i + 1);
        if i + |pat| <= |s[1..]| {
          assert s[1..][i..i + |pat|] == s[i + 1..i + 1 + |pat|];
        }
      }
      ReplaceAllAbsent(s[1..], pat, rep);
    }
  }

  /** Each replacement changes the length by |rep| - |pat|. */
  lemma {:induction false} ReplaceAllLength(s: string, pat: string, rep: string)
    requires pat != []
    ensures |ReplaceAll(s, pat, rep)| == |s| + Count(s, pat) * (|rep| - |pat|)
    decreases |s|
  {
    var d := |rep| - |pat|;
    if |s| >= |pat| {
      if s[..|pat|] == pat {
        var rest := s[|pat|..];
        ReplaceAllLength(rest, pat, rep);
        var c := Count(rest, pat);
        assert Count(s, pat) == 1 + c;
        assert |ReplaceAll(s, pat, rep)| == |rep| + |ReplaceAll(rest, pat, rep)|;
        assert |ReplaceAll(rest, pat, rep)| == |rest| + c * d;
        MulSucc(c, d);
      } else {
        ReplaceAllLength(s[1..], pat, rep);
        assert Count(s, pat) == Count(s[1..], pat);
        assert |ReplaceAll(s, pat, rep)| == 1 + |ReplaceAll(s[1..], pat, rep)|;
      }
    } else {
      assert Count(s, pat) == 0;
    }
  }

  lemma MulSucc(c: int, d: int)
    ensures (1 + c) * d == d + c * d
  {
  }

  // ---------------------------------------------------------------------
  // fmt.Sprintf("$%d", position).

  function DigitChar(d: nat): (c: char)
    requires d < 10
    ensures '0' <= c <= '9'
  {
    "0123456789"[d]
  }

  /** The decimal text of n, most significant digit first, no leading zero. */
  function Decimal(n: nat): (r: string)
    ensures |r| >= 1
    ensures forall i :: 0 <= i < |r| ==> '0' <= r[i] <= '9'
    decreases n
  {
    if n < 10 then [DigitChar(n)] else Decimal(n / 10) + [DigitChar(n % 10)]
  }

  /** Reads a string of decimal digits. */
  function ParseDecimal(s: string): nat
    decreases |s|
  {
    if s == [] then 0
    else
      var c := s[|s| - 1];
      ParseDecimal(s[..|s| - 1]) * 10 + (if '0' <= c <= '9' then (c as int - '0' as int) else 0)
  }

  /** Decimal text reads back as the number it was made from. */
  lemma {:induction false} DecimalRoundTrip(n: nat)
    ensures ParseDecimal(Decimal(n)) == n
    decreases n
  {
    var r := Decimal(n);
    if n < 10 {
      assert r[..0] == [];
      assert "0123456789"[n] as int - '0' as int == n;
    } else {
      DecimalRoundTrip(n / 10);
      assert r[..|r| - 1] == Decimal(n / 10);
      assert "0123456789"[n % 10] as int - '0' as int == n % 10;
    }
  }

  /** The positional placeholder `$n`. */
  function Placeholder(position: nat): string
  {
    "$" + Decimal(position)
  }

  /** Different positions get different placeholders. */
  lemma PlaceholderInjective(a: nat, b: nat)
    requires Placeholder(a) == Placeholder(b)
    ensures a == b
  {
    assert Decimal(a) == Placeholder(a)[1..] == Placeholder(b)[1..] == Decimal(b);
    DecimalRoundTrip(a);
    DecimalRoundTrip(b);
  }

  // ---------------------------------------------------------------------
  // buildNamedQuery.

  /** The query after the keys, in this order, have been replaced by $1,
      $2, ...; keys none of which occurs in the query leave it unchanged. */
  function Substitute(query: string, keys: seq<string>): (r: string)
    ensures (forall i: nat, j: nat :: i < |keys| ==> !OccursAt(query, keys[i], j)) ==> r == query
    decreases |keys|
  {
    if keys == [] then query
    else
      var prev := Substitute(query, keys[..|keys| - 1]);
      AbsentStep(query, keys, keys[..|keys| - 1], prev);
      ReplaceAll(prev, keys[|keys| - 1], Placeholder(|keys|))
  }

  /** The last replacement of Substitute keeps an unchanged query unchanged
      when its key does not occur either. */
  lemma AbsentStep(query: string, keys: seq<string>, prefix: seq<string>, prev: string)
    requires keys != [] && prefix == keys[..|keys| - 1]
    requires (forall i: nat, j: nat :: i < |prefix| ==> !OccursAt(query, prefix[i], j)) ==> prev == query
    ensures (forall i: nat, j: nat :: i < |keys| ==> !OccursAt(query, keys[i], j)) ==>
      ReplaceAll(prev, keys[|keys| - 1], Placeholder(|keys|)) == query
  {
    if forall i: nat, j: nat :: i < |keys| ==> !OccursAt(query, keys[i], j) {
      forall i: nat, j: nat | i < |prefix|
        ensures !OccursAt(query, prefix[i], j)
      {
        assert prefix[i] == keys[i];
      }
      ReplaceAllAbsent(query, keys[|keys| - 1], Placeholder(|keys|));
    }
  }

  /** order lists every key of args exactly once, and the i-th positional
      argument is the value of the i-th key. */
  ghost predicate AlignedWith(args: map<string, Arg>, order: seq<string>, positional: seq<Arg>)
  {
    && |positional| == |order|
    && (forall i, j :: 0 <= i < j < |order| ==> order[i] != order[j])
    && (forall k :: k in args <==> k in order)
    && (forall i :: 0 <= i < |order| ==> order[i] in args && positional[i] == args[order[i]])
  }

  /** buildNamedQuery: the map is visited in an arbitrary order; whatever the
      order, there is one positional argument per map entry, and the i-th is
      the value of the key that was replaced by `$i`. */
  method BuildNamedQuery(query: string, args: map<string, Arg>) returns (named: string, positional: seq<Arg>, ghost order: seq<string>)
    ensures AlignedWith(args, order, positional)
    ensures named == Substitute(query, order)
    ensures args == map[] ==> named == query && positional == []
  {
    named, positional, order := query, [], [];
    var remaining := args.Keys;
    var position := 1;
    while remaining != {}
      invariant position == |order| + 1 && |positional| == |order|
      invariant remaining <= args.Keys
      invariant forall i :: 0 <= i < |order| ==> order[i] in args && order[i] !in remaining
      invariant forall i, j :: 0 <= i < j < |order| ==> order[i] != order[j]
      invariant forall k :: k in args ==> k in remaining || k in order
      invariant |order| + |remaining| == |args|
      invariant forall i :: 0 <= i < |order| ==> positional[i] == args[order[i]]
      invariant named == Substitute(query, order)
      decreases |remaining|
    {
      var key :| key in remaining;
      named := ReplaceAll(named, key, Placeholder(position));
      positional := positional + [args[key]];
      order := order + [key];
      remaining := remaining - {key};
      position := position + 1;
    }
  }

  // ---------------------------------------------------------------------
  // buildDateFilters and buildPagination.

  const FromClause: string := " AND ch.created_at >= $from_date$"
  const ToClause: string := " AND ch.created_at <= $to_date$"
  const PageClause: string := " ORDER BY ch.created_at DESC LIMIT $limit$ OFFSET $offset$"

  /** The argument map shared by the clauses of one query. */
  class ArgMap {
    var entries: map<string, Arg>

    constructor (entries: map<string, Arg>)
      ensures this.entries == entries
    {
      this.entries := entries;
    }
  }

  /** The clauses the date filters append: the lower bound, then the upper,
      each only when its date is given. */
  function DateClauses(fromDate: string, toDate: string): string
  {
    (if fromDate != "" then FromClause else "") + (if toDate != "" then ToClause else "")
  }

  /** The argument map after the date filters have been added to m. */
  function WithDates(m: map<string, Arg>, fromDate: string, toDate: string): (r: map<string, Arg>)
    ensures fromDate == "" && toDate == "" ==> r == m
    ensures r.Keys == m.Keys + (if fromDate != "" then {"$from_date$"} else {}) + (if toDate != "" then {"$to_date$"} else {})
    ensures fromDate != "" ==> r["$from_date$"] == TextArg(fromDate)
    ensures toDate != "" ==> r["$to_date$"] == TextArg(toDate)
    ensures forall k :: k in m && !(k == "$from_date$" && fromDate != "") && !(k == "$to_date$" && toDate != "") ==> r[k] == m[k]
  {
    var m := if fromDate != "" then m["$from_date$" := TextArg(fromDate)] else m;
    if toDate != "" then m["$to_date$" := TextArg(toDate)] else m
  }

  /** Adding the same date filters twice is the same as adding them once. */
  lemma WithDatesIdempotent(m: map<string, Arg>, fromDate: string, toDate: string)
    ensures WithDates(WithDates(m, fromDate, toDate), fromDate, toDate) == WithDates(m, fromDate, toDate)
  {
  }

  /** buildDateFilters: an empty date adds nothing; a given date appends its
      clause (the lower bound before the upper) and sets its argument. */
  method BuildDateFilters(query: string, args: ArgMap, fromDate: string, toDate: string) returns (q: string)
    modifies args
    ensures q == query + DateClauses(fromDate, toDate)
    ensures args.entries == WithDates(old(args.entries), fromDate, toDate)
  {
    q := query;
    if fromDate != "" {
      q := q + FromClause;
      args.entries := args.entries["$from_date$" := TextArg(fromDate)];
    }
    if toDate != "" {
      q := q + ToClause;
      args.entries := args.entries["$to_date$" := TextArg(toDate)];
    }
  }

  /** buildPagination: appends the ordering and paging clause and sets
      `$limit$` and `$offset$` from the pagination record. */
  method BuildPagination(query: string, args: ArgMap, p: Pagination) returns (q: string)
    modifies args
    ensures q == query + PageClause
    ensures args.entries == old(args.entries)["$limit$" := IntArg(p.limit)]["$offset$" := IntArg(p.offset)]
  {
    q := query + PageClause;
    args.entries := args.entries["$limit$" := IntArg(p.limit)];
    args.entries := args.entries["$offset$" := IntArg(p.offset)];
  }

  // ---------------------------------------------------------------------
  // GetCashbackHistoryByUserID, up to the point where Postgres is queried.

  /** PageTotal = (total + PageSize - 1) / PageSize in int64 arithmetic: the
      number of pages needed for total items, when nothing wraps. */
  function PageTotal(total: int, pageSize: int): (r: int)
    requires pageSize >= 1
    ensures InInt64(total) && pageSize <= MaxInt64 ==> InInt64(r)
    ensures 0 <= total && total + pageSize - 1 <= MaxInt64 ==>
      r >= 0 && (r - 1) * pageSize < total <= r * pageSize && (r == 0 <==> total == 0)
  {
    var n := Wrap64(total + pageSize - 1);
    var r := GoDiv(n, pageSize);
    if 0 <= total && total + pageSize - 1 <= MaxInt64 then
      CeilingDivision(total, pageSize, r);
      r
    else r
  }

  lemma CeilingDivision(total: int, pageSize: int, r: int)
    requires 0 <= total && pageSize >= 1
    requires r * pageSize <= total + pageSize - 1 < r * pageSize + pageSize
    ensures r >= 0 && (r - 1) * pageSize < total <= r * pageSize && (r == 0 <==> total == 0)
  {
    assert (r - 1) * pageSize == r * pageSize - pageSize;
    if r >= 1 {
      assert r * pageSize >= pageSize;
    }
  }

  const CountBase: string :=
    "SELECT COUNT(*) FROM cashback_history ch JOIN cashback c ON c.id = ch.cashback_id"
    + " WHERE c.turon_user_id = $turon_user_id$ AND ch.deleted_at IS NULL"

  const SelectBase: string :=
    "SELECT ch.id, ch.cashback_id, s.slug as source_slug, ch.cashback_amount, ch.host_ip, ch.type,"
    + " ch.created_at, ch.updated_at, ch.deleted_at FROM cashback_history ch"
    + " JOIN cashback c ON c.id = ch.cashback_id LEFT JOIN sources s ON s.id = ch.source_id"
    + " WHERE c.turon_user_id = $turon_user_id$ AND ch.deleted_at IS NULL"

  /** The count query and the page query, each with its positional arguments. */
  datatype HistoryQueries = HistoryQueries(countQuery: string, countArgs: seq<Arg>, pageQuery: string, pageArgs: seq<Arg>)

  /** The named arguments of the count query. */
  function FilterArgs(turonUserId: int, fromDate: string, toDate: string): map<string, Arg>
  {
    WithDates(map["$turon_user_id$" := IntArg(turonUserId)], fromDate, toDate)
  }

  /** The named arguments of the page query. */
  function PageArgs(turonUserId: int, fromDate: string, toDate: string, limit: int, offset: int): map<string, Arg>
  {
    FilterArgs(turonUserId, fromDate, toDate)["$limit$" := IntArg(limit)]["$offset$" := IntArg(offset)]
  }

  /** The text of the count query before naming. */
  function CountText(fromDate: string, toDate: string): string
  {
    CountBase + DateClauses(fromDate, toDate)
  }

  /** The text of the page query before naming. */
  function PageText(fromDate: string, toDate: string): string
  {
    SelectBase + DateClauses(fromDate, toDate) + PageClause
  }

  /** named and positional are what buildNamedQuery makes of query and m for
      some visiting order of the map: every key replaced by its `$i`, and the
      i-th positional argument the value of that key. */
  ghost predicate NamedAs(m: map<string, Arg>, query: string, named: string, positional: seq<Arg>)
  {
    exists order :: AlignedWith(m, order, positional) && named == Substitute(query, order)
  }

  /** A one-entry map can only be visited in one order. */
  lemma SingleEntryOrder(key: string, v: Arg, order: seq<string>, positional: seq<Arg>)
    requires AlignedWith(map[key := v], order, positional)
    ensures order == [key] && positional == [v]
  {
    assert key in order;
    assert order[0] in map[key := v];
    if |order| > 1 {
      SecondKey(order);
      assert false;
    }
  }

  lemma SecondKey(order: seq<string>)
    requires |order| > 1
    ensures order[1] in order
  {
  }

  lemma FirstPlaceholder()
    ensures Placeholder(1) == "$1"
  {
    assert Decimal(1) == ['1'];
  }

  /** Without date filters the count query has exactly one argument, the
      user id, in position $1. */
  lemma CountWithoutDates(turonUserId: int, named: string, positional: seq<Arg>)
    requires NamedAs(FilterArgs(turonUserId, "", ""), CountText("", ""), named, positional)
    ensures positional == [IntArg(turonUserId)]
    ensures named == ReplaceAll(CountBase, "$turon_user_id$", "$1")
  {
    var key := "$turon_user_id$";
    assert FilterArgs(turonUserId, "", "") == map[key := IntArg(turonUserId)];
    assert CountText("", "") == CountBase;
    var order :| AlignedWith(map[key := IntArg(turonUserId)], order, positional) && named == Substitute(CountBase, order);
    SingleEntryOrder(key, IntArg(turonUserId), order, positional);
    assert order[..0] == [];
    assert Substitute(CountBase, order) == ReplaceAll(Substitute(CountBase, []), key, Placeholder(1));
    FirstPlaceholder();
  }

  /** The count stage: the user-id map gains the date filters, and the
      count query is built from them and named. */
  method NamedCountQuery(turonUserId: int, fromDate: string, toDate: string, args: ArgMap)
    returns (named: string, positional: seq<Arg>)
    requires args.entries == map["$turon_user_id$" := IntArg(turonUserId)]
    modifies args
    ensures args.entries == FilterArgs(turonUserId, fromDate, toDate)
    ensures NamedAs(FilterArgs(turonUserId, fromDate, toDate), CountText(fromDate, toDate), named, positional)
  {
    var countQuery := BuildDateFilters(CountBase, args, fromDate, toDate);
    ghost var order;
    named, positional, order := BuildNamedQuery(countQuery, args.entries);
    assert AlignedWith(args.entries, order, positional) && named == Substitute(countQuery, order);
  }

  /** The page stage: the same filters are added again (a no-op on the
      map), then the paging clause, and the page query is named. */
  method NamedPageQuery(turonUserId: int, fromDate: string, toDate: string, args: ArgMap, p: Pagination)
    returns (named: string, positional: seq<Arg>)
    requires args.entries == FilterArgs(turonUserId, fromDate, toDate)
    modifies args
    ensures args.entries == PageArgs(turonUserId, fromDate, toDate, p.limit, p.offset)
    ensures NamedAs(PageArgs(turonUserId, fromDate, toDate, p.limit, p.offset), PageText(fromDate, toDate), named, positional)
  {
    var query := BuildDateFilters(SelectBase, args, fromDate, toDate);
    WithDatesIdempotent(map["$turon_user_id$" := IntArg(turonUserId)], fromDate, toDate);
    query := BuildPagination(query, args, p);
    ghost var order;
    named, positional, order := BuildNamedQuery(query, args.entries);
    assert AlignedWith(args.entries, order, positional) && named == Substitute(query, order);
  }

  /** GetCashbackHistoryByUserID: builds and names the count query, records
      the count the database returns (`total`) and the page total derived
      from it, then builds and names the page query over the same filters
      plus the page's limit and offset. */
  method GetCashbackHistoryByUserID(turonUserId: int, fromDate: string, toDate: string, p: Pagination, total: Result<int, Error>)
    returns (r: Result<HistoryQueries, Error>)
    requires p.pageSize >= 1
    modifies p
    ensures total.Failure? ==> r == Failure(TotalCountFailed(total.error)) && p.Value() == old(p.Value())
    ensures total.Success? ==>
      p.Value() == old(p.Value()).(itemTotal := total.value, pageTotal := PageTotal(total.value, old(p.pageSize)))
    ensures total.Success? ==> r.Success?
    ensures r.Success? ==>
      NamedAs(FilterArgs(turonUserId, fromDate, toDate), CountText(fromDate, toDate), r.value.countQuery, r.value.countArgs)
    ensures r.Success? ==>
      NamedAs(PageArgs(turonUserId, fromDate, toDate, p.limit, p.offset), PageText(fromDate, toDate), r.value.pageQuery, r.value.pageArgs)
  {
    var args := new ArgMap(map["$turon_user_id$" := IntArg(turonUserId)]);
    var namedCount, countArgs := NamedCountQuery(turonUserId, fromDate, toDate, args);
    if total.Failure? {
      return Failure(TotalCountFailed(total.error));
    }
    RecordCount(p, total.value);
    var namedPage, pageArgs := NamedPageQuery(turonUserId, fromDate, toDate, args, p);
    r := Success(HistoryQueries(namedCount, countArgs, namedPage, pageArgs));
  }

  /** Records the item count and the page total derived from it. */
  method RecordCount(p: Pagination, total: int)
    requires p.pageSize >= 1
    modifies p
    ensures p.Value() == old(p.Value()).(itemTotal := total, pageTotal := PageTotal(total, old(p.pageSize)))
  {
    p.itemTotal := total;
    p.pageTotal := PageTotal(total, p.pageSize);
  }
}

=== FILE: queue.dfy ===
/** internal/queue/cashback_queue.go: the cashback queue, its per-user lock
    registry and the handlers, over an in-memory cashback repository. The
    single consumer goroutine is modelled as applying operations one at a
    time in channel order; locks are identified by number. */
module Queue {
  import opened Wrappers
  import opened Errors
  import opened Ledger

  /** The cashback and cashback_history tables. `fault` names the one call
      that fails, if any. */
  class CashbackRepository {
    var balances: map<int, Balance>
    var history: seq<HistoryEntry>
    var nextBalanceId: int
    var nextHistoryId: int
    const fault: Fault

    function State(): State
      reads this
    {
      Ledger.State(balances, history, nextBalanceId, nextHistoryId)
    }

    constructor (fault: Fault)
      ensures State() == Empty && this.fault == fault
    {
      balances, history, nextBalanceId, nextHistoryId := map[], [], 1, 1;
      this.fault := fault;
    }

    /** The user's live cashback row, or None. */
    method GetCashbackByUserID(userId: int) returns (r: Result<Option<Balance>, Error>)
      ensures fault == FailLookup ==> r == Failure(Database)
      ensures fault != FailLookup ==> r == Success(if userId in balances then Some(balances[userId]) else None)
    {
      if fault == FailLookup {
        return Failure(Database);
      }
      r := Success(if userId in balances then Some(balances[userId]) else None);
    }

    /** Inserts a row and returns it with the id the store assigned. */
    method CreateCashback(userId: int, amount: int) returns (r: Result<Balance, Error>)
      modifies this
      ensures fault == FailCreate ==> r == Failure(Database) && State() == old(State())
      ensures fault != FailCreate ==>
        r == Success(Balance(old(nextBalanceId), amount)) && State() == WithBalance(old(State()), userId, amount)
    {
      if fault == FailCreate {
        return Failure(Database);
      }
      var b := Balance(nextBalanceId, amount);
      balances := balances[userId := b];
      nextBalanceId := nextBalanceId + 1;
      r := Success(b);
    }

    /** Sets the amount of the row with the given id. */
    method UpdateCashbackAmount(id: int, amount: int) returns (err: Outcome<Error>)
      modifies this
      ensures fault == FailUpdate ==> err == Fail(Database) && State() == old(State())
      ensures fault != FailUpdate ==> err == Pass && State() == WithAmount(old(State()), id, amount)
    {
      if fault == FailUpdate {
        return Fail(Database);
      }
      balances := map u | u in balances :: if balances[u].id == id then Balance(id, amount) else balances[u];
      err := Pass;
    }

    /** Appends one history row with the next serial id. */
    method CreateCashbackHistory(cashbackId: int, q: QueueRequest, kind: string) returns (err: Outcome<Error>)
      modifies this
      ensures Step(State(), err) == Append(old(State()), cashbackId, q, kind, fault)
    {
      if fault == FailAppend {
        return Fail(Database);
      }
      history := history + [EntryFor(State(), cashbackId, q, kind)];
      nextHistoryId := nextHistoryId + 1;
      err := Pass;
    }
  }

  /** The queue: the lock registry and the repository its handlers use. */
  class CashbackQueue {
    var userLocks: map<int, nat>
    var locksCreated: nat
    const repo: CashbackRepository

    /** Every registered lock was handed out by the registry. */
    ghost predicate Valid()
      reads this
    {
      forall u :: u in userLocks ==> userLocks[u] < locksCreated
    }

    constructor (repo: CashbackRepository)
      ensures Valid() && userLocks == map[] && this.repo == repo
    {
      userLocks, locksCreated := map[], 0;
      this.repo := repo;
    }

    /** The registry step of process: the user's lock, created on first use.
        An existing lock is never replaced, a new one is distinct from every
        lock already registered, and the registry only grows. */
    method LockFor(userId: int) returns (lock: nat)
      requires Valid()
      modifies this`userLocks, this`locksCreated
      ensures Valid()
      ensures userId in userLocks && userLocks[userId] == lock
      ensures userId in old(userLocks) ==> lock == old(userLocks)[userId] && userLocks == old(userLocks)
      ensures userId !in old(userLocks) ==>
        userLocks == old(userLocks)[userId := lock] && forall v :: v in old(userLocks) ==> old(userLocks)[v] != lock
    {
      if userId in userLocks {
        lock := userLocks[userId];
      } else {
        lock := locksCreated;
        locksCreated := locksCreated + 1;
        userLocks := userLocks[userId := lock];
      }
    }

    /** handleIncrease. `kind` is the type its history row records. */
    method HandleIncrease(q: QueueRequest, kind: string) returns (err: Outcome<Error>)
      modifies repo
      ensures Step(repo.State(), err) == IncreaseStep(old(repo.State()), q, kind, repo.fault)
    {
      var u := q.request.turonUserId;
      var found := repo.GetCashbackByUserID(u);
      if found.Failure? {
        return Fail(found.error);
      }
      var cashbackId: int;
      if found.value.None? {
        var created := repo.CreateCashback(u, q.request.amount);
        if created.Failure? {
          return Fail(created.error);
        }
        cashbackId := created.value.id;
      } else {
        var b := found.value.value;
        var newAmount := b.amount + q.request.amount;
        var updated := repo.UpdateCashbackAmount(b.id, newAmount);
        if updated.Fail? {
          return updated;
        }
        cashbackId := b.id;
      }
      err := repo.CreateCashbackHistory(cashbackId, q, kind);
    }

    /** handleDecrease. `kind` is the type its history row records. */
    method HandleDecrease(q: QueueRequest, kind: string) returns (err: Outcome<Error>)
      modifies repo
      ensures Step(repo.State(), err) == DecreaseStep(old(repo.State()), q, kind, repo.fault)
    {
      var u := q.request.turonUserId;
      var found := repo.GetCashbackByUserID(u);
      if found.Failure? {
        return Fail(found.error);
      }
      if found.value.None? {
        return Fail(NoCashbackFound);
      }
      var b := found.value.value;
      if b.amount < q.request.amount {
        return Fail(InsufficientCashback);
      }
      var newAmount := b.amount - q.request.amount;
      var updated := repo.UpdateCashbackAmount(b.id, newAmount);
      if updated.Fail? {
        return updated;
      }
      err := repo.CreateCashbackHistory(b.id, q, kind);
    }

    /** One iteration of process: register the user's lock, run the
        handler for the operation's type, and produce its single reply. */
    method ProcessOne(op: Operation) returns (reply: Outcome<Error>)
      requires Valid()
      modifies this`userLocks, this`locksCreated, repo
      ensures Valid()
      ensures Step(repo.State(), reply) == Dispatch(old(repo.State()), op, repo.fault)
      ensures userLocks.Keys == old(userLocks).Keys + {UserOf(op)}
      ensures forall v :: v in old(userLocks) ==> userLocks[v] == old(userLocks)[v]
    {
      var lock := LockFor(op.request.request.turonUserId);
      if op.kind == Increase {
        reply := HandleIncrease(op.request, op.kind);
      } else if op.kind == Decrease {
        reply := HandleDecrease(op.request, op.kind);
      } else {
        reply := Fail(UnknownOperation);
      }
    }

    /** process: drain the operations in FIFO order, one reply per
        operation. The repository ends as the ledger specification says,
        and the registry has gained exactly the users it had not seen. */
    method Process(ops: seq<Operation>) returns (replies: seq<Outcome<Error>>)
      requires Valid()
      modifies this`userLocks, this`locksCreated, repo
      ensures Valid()
      ensures Trace(repo.State(), replies) == Run(old(repo.State()), ops, repo.fault)
      ensures userLocks.Keys == old(userLocks).Keys + set i | 0 <= i < |ops| :: UserOf(ops[i])
      ensures forall v :: v in old(userLocks) ==> userLocks[v] == old(userLocks)[v]
    {
      replies := [];
      var i := 0;
      while i < |ops|
        invariant 0 <= i <= |ops|
        invariant Valid()
        invariant Trace(repo.State(), replies) == Run(old(repo.State()), ops[..i], repo.fault)
        invariant userLocks.Keys == old(userLocks).Keys + set k | 0 <= k < i :: UserOf(ops[k])
        invariant forall v :: v in old(userLocks) ==> userLocks[v] == old(userLocks)[v]
      {
        var reply := ProcessOne(ops[i]);
        replies := replies + [reply];
        assert ops[..i + 1][..i] == ops[..i];
        assert (set k | 0 <= k < i + 1 :: UserOf(ops[k])) == (set k | 0 <= k < i :: UserOf(ops[k])) + {UserOf(ops[i])};
        i := i + 1;
      }
      assert ops[..i] == ops;
    }

    /** Enqueue: a synchronous submit; the caller gets the operation's reply. */
    method Enqueue(kind: string, req: Request, sourceId: int) returns (err: Outcome<Error>)
      requires Valid()
      modifies this`userLocks, this`locksCreated, repo
      ensures Valid()
      ensures Step(repo.State(), err) == Dispatch(old(repo.State()), Operation(kind, QueueRequest(req, sourceId)), repo.fault)
      ensures userLocks.Keys == old(userLocks).Keys + {req.turonUserId}
      ensures forall v :: v in old(userLocks) ==> userLocks[v] == old(userLocks)[v]
    {
      err := ProcessOne(Operation(kind, QueueRequest(req, sourceId)));
    }
  }
}

=== FILE: service.dfy ===
/** internal/service/cashback.go: the cashback service. Increase and
    decrease guard the user ids, resolve the source and submit the
    operation to the queue; the history read validates dates, clamps and
    calculates the pagination, then hands over to the repository. */
module Service {
  import opened Wrappers
  import opened Errors
  import opened Int64
  import opened Paging
  import opened Ledger
  import opened Queue
  import opened Sources
  import opened Queries

  // ---------------------------------------------------------------------
  // Guards and validation.

  /** The request names both a turon and a cinerama user. */
  predicate BothIds(req: Request)
  {
    req.turonUserId != 0 && req.cineramaUserId != 0
  }

  /** validateDates. `isDate` stands for time.Parse with the layout
      2006-01-02 succeeding. An empty date is not checked; the from-date is
      checked first, so when both are bad its error is the one returned. */
  function ValidateDates(fromDate: string, toDate: string, isDate: string -> bool): (r: Outcome<Error>)
    ensures r.Pass? <==> (fromDate == "" || isDate(fromDate)) && (toDate == "" || isDate(toDate))
    ensures r == Fail(InvalidFromDate) <==> fromDate != "" && !isDate(fromDate)
    ensures r == Fail(InvalidToDate) <==> (fromDate == "" || isDate(fromDate)) && toDate != "" && !isDate(toDate)
  {
    if fromDate != "" && !isDate(fromDate) then Fail(InvalidFromDate)
    else if toDate != "" && !isDate(toDate) then Fail(InvalidToDate)
    else Pass
  }

  /** The largest page size the service hands on. */
  const MaxPageSize: int := 100

  /** The record after validatePagination: the page is at least 1, the size
      is in [1, 100] (a missing size becomes 10, an oversized one 100), and
      in-range values and every other field are left alone. */
  function Clamped(v: PageInfo): (r: PageInfo)
    ensures r.page >= 1 && 1 <= r.pageSize <= MaxPageSize
    ensures v.page >= 1 ==> r.page == v.page
    ensures v.page < 1 ==> r.page == 1
    ensures 1 <= v.pageSize <= MaxPageSize ==> r.pageSize == v.pageSize
    ensures v.pageSize < 1 ==> r.pageSize == 10
    ensures v.pageSize > MaxPageSize ==> r.pageSize == MaxPageSize
    ensures r.limit == v.limit && r.offset == v.offset && r.pageTotal == v.pageTotal && r.itemTotal == v.itemTotal
    ensures InRange(v) ==> InRange(r)
  {
    var page := if v.page < 1 then 1 else v.page;
    var filled := if v.pageSize < 1 then 10 else v.pageSize;
    var size := if filled > MaxPageSize then MaxPageSize else filled;
    v.(page := page, pageSize := size)
  }

  /** Clamping twice is clamping once, and Calculate changes neither the
      page nor the size of a clamped record. */
  lemma ClampStable(v: PageInfo)
    ensures Clamped(Clamped(v)) == Clamped(v)
    ensures Calculated(Clamped(v)).page == Clamped(v).page
    ensures Calculated(Clamped(v)).pageSize == Clamped(v).pageSize
  {
  }

  lemma ProductBound(a: int, b: int, c: int, bound: int)
    requires 0 <= a && 0 <= b <= c && a * c <= bound
    ensures a * b <= bound
  {
    assert a * b <= a * c;
  }

  /** After clamp and Calculate the limit is in [1, 100]; the offset is
      (page - 1) * size for every page up to 92233720368547759, the largest
      for which (page - 1) * 100 still fits in an int64. */
  lemma ClampThenCalculate(v: PageInfo)
    ensures var r := Calculated(Clamped(v));
      && 1 <= r.limit <= MaxPageSize
      && r.limit == r.pageSize
      && (r.page <= MaxInt64 / MaxPageSize + 1 ==> r.offset == (r.page - 1) * r.pageSize >= 0)
  {
    var r := Calculated(Clamped(v));
    if r.page <= MaxInt64 / MaxPageSize + 1 {
      assert (r.page - 1) * MaxPageSize <= MaxInt64;
      ProductBound(r.page - 1, r.pageSize, MaxPageSize, MaxInt64);
    }
  }

  // ---------------------------------------------------------------------
  // IncreaseCashback and DecreaseCashback as one function of the stores.

  /** The ledger, the sources table and the caller's answer after one call. */
  datatype Submitted = Submitted(ledger: State, table: SourceTable, reply: Outcome<Error>)

  /** IncreaseCashback (kind Increase) or DecreaseCashback (kind Decrease):
      reject a request naming both users, then resolve the source (which may
      create it), then submit the operation with the source's id and pass
      its reply through. A failure before the submit leaves the ledger as it
      was. */
  function Submission(ledger: State, table: SourceTable, kind: string, req: Request,
                      ledgerFault: Ledger.Fault, sourceFault: Sources.Fault): (r: Submitted)
    ensures BothIds(req) ==> r == Submitted(ledger, table, Fail(OnlyOneUserId))
    ensures !BothIds(req) ==> r.table == FindOrCreate(table, req.turonUserId, req.hostIp, sourceFault).table
    ensures !BothIds(req) && FindOrCreate(table, req.turonUserId, req.hostIp, sourceFault).result.Failure? ==>
      r.ledger == ledger && r.reply == Fail(DetermineSource(FindOrCreate(table, req.turonUserId, req.hostIp, sourceFault).result.error))
    ensures r.reply.Pass? ==> !BothIds(req) && FindOrCreate(table, req.turonUserId, req.hostIp, sourceFault).result.Success?
  {
    if BothIds(req) then Submitted(ledger, table, Fail(OnlyOneUserId))
    else
      var resolved := FindOrCreate(table, req.turonUserId, req.hostIp, sourceFault);
      match resolved.result
      case Failure(e) => Submitted(ledger, resolved.table, Fail(DetermineSource(e)))
      case Success(source) =>
        var step := Dispatch(ledger, Operation(kind, QueueRequest(req, source.id)), ledgerFault);
        Submitted(step.state, resolved.table, step.reply)
  }

  /** A request with only a cinerama user never reaches the ledger: the
      source cannot be determined without a turon user. */
  lemma CineramaOnlyRejected(ledger: State, table: SourceTable, kind: string, req: Request,
                             ledgerFault: Ledger.Fault, sourceFault: Sources.Fault)
    requires req.turonUserId == 0
    ensures Submission(ledger, table, kind, req, ledgerFault, sourceFault)
      == Submitted(ledger, table, Fail(DetermineSource(NoSourceSlug)))
    ensures Message(Submission(ledger, table, kind, req, ledgerFault, sourceFault).reply.error)
      == "failed to determine source: " + "cannot determine source slug: turon_user_id must be provided"
  {
  }

  /** Once the source is resolved, the ledger and the reply are those of
      the queue's dispatcher on the request tagged with the source's id. With
      the history append working, an accepted submission moves the user's
      amount by the signed delta, leaves every other user alone and appends
      one row carrying the source's id and the operation type; a refused one
      leaves the ledger as it was. */
  lemma SubmissionEffect(ledger: State, table: SourceTable, kind: string, req: Request,
                         ledgerFault: Ledger.Fault, sourceFault: Sources.Fault, src: Source)
    requires !BothIds(req)
    requires FindOrCreate(table, req.turonUserId, req.hostIp, sourceFault).result == Success(src)
    ensures var r := Submission(ledger, table, kind, req, ledgerFault, sourceFault);
      var op := Operation(kind, QueueRequest(req, src.id));
      && Step(r.ledger, r.reply) == Dispatch(ledger, op, ledgerFault)
      && (Ledger.Valid(ledger) && ledgerFault != FailAppend ==>
            && (r.reply.Fail? ==> r.ledger == ledger)
            && (r.reply.Pass? ==>
                  && Amount(r.ledger, req.turonUserId) == Amount(ledger, req.turonUserId) + Delta(op)
                  && |r.ledger.history| == |ledger.history| + 1
                  && r.ledger.history[..|ledger.history|] == ledger.history
                  && r.ledger.history[|ledger.history|].sourceId == src.id
                  && r.ledger.history[|ledger.history|].kind == kind
                  && r.ledger.history[|ledger.history|].amount == req.amount)
            && (forall v :: v != req.turonUserId ==> Amount(r.ledger, v) == Amount(ledger, v)))
  {
    var op := Operation(kind, QueueRequest(req, src.id));
    if Ledger.Valid(ledger) && ledgerFault != FailAppend {
      DispatchEffect(ledger, op, ledgerFault);
    }
  }

  /** Submissions keep both stores well-formed: ledger ids stay distinct
      and source slugs stay unique. */
  lemma SubmissionValid(ledger: State, table: SourceTable, kind: string, req: Request,
                        ledgerFault: Ledger.Fault, sourceFault: Sources.Fault)
    requires Ledger.Valid(ledger) && Sources.Valid(table)
    ensures var r := Submission(ledger, table, kind, req, ledgerFault, sourceFault);
      Ledger.Valid(r.ledger) && Sources.Valid(r.table)
  {
    if !BothIds(req) {
      FindOrCreateValid(table, req.turonUserId, req.hostIp, sourceFault);
      var resolved := FindOrCreate(table, req.turonUserId, req.hostIp, sourceFault);
      if resolved.result.Success? {
        DispatchValid(ledger, Operation(kind, QueueRequest(req, resolved.result.value.id)), ledgerFault);
      }
    }
  }

  /** A first increase on empty stores creates the turon source and the
      user's balance; a decrease of part of it is accepted and leaves the
      rest; a decrease of more than is left is refused and changes
      nothing. */
  lemma IncreaseThenDecrease()
    ensures var req := Request(7, 0, 100, "10.0.0.1", "web");
      var first := Submission(Empty, SourceTable([], 1), Increase, req, Ledger.Healthy, Sources.Healthy);
      var second := Submission(first.ledger, first.table, Decrease, req.(amount := 30), Ledger.Healthy, Sources.Healthy);
      var third := Submission(second.ledger, second.table, Decrease, req.(amount := 71), Ledger.Healthy, Sources.Healthy);
      && first.reply == Pass && Amount(first.ledger, 7) == 100
      && first.table == SourceTable([Source(1, "10.0.0.1", SourceTuron)], 2)
      && second.reply == Pass && Amount(second.ledger, 7) == 70 && |second.ledger.history| == 2
      && second.table == first.table
      && third == Submitted(second.ledger, second.table, Fail(InsufficientCashback))
  {
    var req := Request(7, 0, 100, "10.0.0.1", "web");
    var source := Source(1, "10.0.0.1", SourceTuron);
    var first := Submission(Empty, SourceTable([], 1), Increase, req, Ledger.Healthy, Sources.Healthy);
    assert FindOrCreate(SourceTable([], 1), 7, "10.0.0.1", Sources.Healthy).result == Success(source);
    assert first.ledger.balances[7] == Balance(1, 100);
    assert FindBySlug([source], SourceTuron) == Some(source);
    var second := Submission(first.ledger, first.table, Decrease, req.(amount := 30), Ledger.Healthy, Sources.Healthy);
    WithAmountOwner(first.ledger, 7, 70);
    assert second.ledger.balances[7] == Balance(1, 70);
  }

  // ---------------------------------------------------------------------
  // The service object.

  /** CashbackService: the cashback store, the queue that owns it, and the
      source service. */
  class CashbackService {
    const ledger: CashbackRepository
    const queue: CashbackQueue
    const sources: SourceService

    /** The queue works on the same store the service reads. */
    ghost predicate Valid()
      reads this, queue
    {
      queue.repo == ledger && queue.Valid()
    }

    /** NewCashbackService: builds the queue over the given store. */
    constructor (repo: CashbackRepository, sourceService: SourceService)
      ensures Valid() && ledger == repo && sources == sourceService
      ensures fresh(queue) && queue.userLocks == map[]
    {
      ledger := repo;
      queue := new CashbackQueue(repo);
      sources := sourceService;
    }

    /** The common body of IncreaseCashback and DecreaseCashback. Only a
        call that reaches the queue can register the user's lock; existing
        locks are never replaced. */
    method Submit(kind: string, req: Request) returns (err: Outcome<Error>)
      requires Valid()
      modifies ledger, queue`userLocks, queue`locksCreated, sources.repo
      ensures Valid()
      ensures Submitted(ledger.State(), sources.repo.Table(), err)
        == Submission(old(ledger.State()), old(sources.repo.Table()), kind, req, ledger.fault, sources.repo.fault)
      ensures old(queue.userLocks).Keys <= queue.userLocks.Keys <= old(queue.userLocks).Keys + {req.turonUserId}
      ensures forall v :: v in old(queue.userLocks) ==> queue.userLocks[v] == old(queue.userLocks)[v]
      ensures BothIds(req) || FindOrCreate(old(sources.repo.Table()), req.turonUserId, req.hostIp, sources.repo.fault).result.Failure?
        ==> queue.userLocks == old(queue.userLocks)
    {
      if BothIds(req) {
        return Fail(OnlyOneUserId);
      }
      var source := sources.FindSourceOrCreate(req.turonUserId, req.hostIp);
      if source.Failure? {
        return Fail(DetermineSource(source.error));
      }
      err := queue.Enqueue(kind, req, source.value.id);
    }

    /** IncreaseCashback. */
    method IncreaseCashback(req: Request) returns (err: Outcome<Error>)
      requires Valid()
      modifies ledger, queue`userLocks, queue`locksCreated, sources.repo
      ensures Valid()
      ensures Submitted(ledger.State(), sources.repo.Table(), err)
        == Submission(old(ledger.State()), old(sources.repo.Table()), Increase, req, ledger.fault, sources.repo.fault)
      ensures old(queue.userLocks).Keys <= queue.userLocks.Keys <= old(queue.userLocks).Keys + {req.turonUserId}
      ensures forall v :: v in old(queue.userLocks) ==> queue.userLocks[v] == old(queue.userLocks)[v]
      ensures BothIds(req) || FindOrCreate(old(sources.repo.Table()), req.turonUserId, req.hostIp, sources.repo.fault).result.Failure?
        ==> queue.userLocks == old(queue.userLocks)
    {
      err := Submit(Increase, req);
    }

    /** DecreaseCashback. */
    method DecreaseCashback(req: Request) returns (err: Outcome<Error>)
      requires Valid()
      modifies ledger, queue`userLocks, queue`locksCreated, sources.repo
      ensures Valid()
      ensures Submitted(ledger.State(), sources.repo.Table(), err)
        == Submission(old(ledger.State()), old(sources.repo.Table()), Decrease, req, ledger.fault, sources.repo.fault)
      ensures old(queue.userLocks).Keys <= queue.userLocks.Keys <= old(queue.userLocks).Keys + {req.turonUserId}
      ensures forall v :: v in old(queue.userLocks) ==> queue.userLocks[v] == old(queue.userLocks)[v]
      ensures BothIds(req) || FindOrCreate(old(sources.repo.Table()), req.turonUserId, req.hostIp, sources.repo.fault).result.Failure?
        ==> queue.userLocks == old(queue.userLocks)
    {
      err := Submit(Decrease, req);
    }

    /** GetCashbackByUserID: dates are validated, then the user's balance is
        looked up (the store's lookup takes only the user id). */
    method GetCashbackByUserID(turonUserId: int, fromDate: string, toDate: string, isDate: string -> bool)
      returns (r: Result<Option<Balance>, Error>)
      ensures ValidateDates(fromDate, toDate, isDate).Fail? ==> r == Failure(ValidateDates(fromDate, toDate, isDate).error)
      ensures ValidateDates(fromDate, toDate, isDate).Pass? && ledger.fault == FailLookup ==> r == Failure(Database)
      ensures ValidateDates(fromDate, toDate, isDate).Pass? && ledger.fault != FailLookup ==>
        r == Success(if turonUserId in ledger.balances then Some(ledger.balances[turonUserId]) else None)
    {
      var checked := ValidateDates(fromDate, toDate, isDate);
      if checked.Fail? {
        return Failure(checked.error);
      }
      r := ledger.GetCashbackByUserID(turonUserId);
    }

    /** validatePagination: clamps the record in place; it never fails. */
    method ValidatePagination(p: Pagination) returns (err: Outcome<Error>)
      modifies p
      ensures err == Pass
      ensures p.Value() == Clamped(old(p.Value()))
    {
      if p.page < 1 {
        p.page := 1;
      }
      if p.pageSize < 1 {
        p.pageSize := 10;
      }
      if p.pageSize > MaxPageSize {
        p.pageSize := MaxPageSize;
      }
      err := Pass;
    }

    /** GetCashbackHistoryByUserID: bad dates are refused before the record
        is touched; otherwise the record is clamped and calculated, then the
        repository records the count (`total`, the database's answer) and
        builds the page query with the calculated limit and offset. */
    method GetCashbackHistoryByUserID(turonUserId: int, fromDate: string, toDate: string, p: Pagination,
                                      isDate: string -> bool, total: Result<int, Error>)
      returns (r: Result<HistoryQueries, Error>)
      requires p.Valid()
      modifies p
      ensures ValidateDates(fromDate, toDate, isDate).Fail? ==>
        r == Failure(ValidateDates(fromDate, toDate, isDate).error) && p.Value() == old(p.Value())
      ensures ValidateDates(fromDate, toDate, isDate).Pass? && total.Failure? ==>
        r == Failure(TotalCountFailed(total.error)) && p.Value() == Calculated(Clamped(old(p.Value())))
      ensures ValidateDates(fromDate, toDate, isDate).Pass? && total.Success? ==>
        var c := Calculated(Clamped(old(p.Value())));
        && p.Value() == c.(itemTotal := total.value, pageTotal := PageTotal(total.value, c.pageSize))
        && r.Success?
        && NamedAs(FilterArgs(turonUserId, fromDate, toDate), CountText(fromDate, toDate),
                   r.value.countQuery, r.value.countArgs)
        && NamedAs(PageArgs(turonUserId, fromDate, toDate, c.limit, c.offset), PageText(fromDate, toDate),
                   r.value.pageQuery, r.value.pageArgs)
    {
      var checked := ValidateDates(fromDate, toDate, isDate);
      if checked.Fail? {
        return Failure(checked.error);
      }
      var _ := ValidatePagination(p);
      p.Calculate();
      r := Queries.GetCashbackHistoryByUserID(turonUserId, fromDate, toDate, p, total);
    }
  }
}

=== FILE: sources.dfy ===
/** internal/service/source.go: FindSourceOrCreate over the sources table,
    as a function of the table (with its lemmas) and as the service method
    that the function specifies. */
module Sources {
  import opened Wrappers
  import opened Errors

  /** The slug of the turon user-id namespace. */
  const SourceTuron: string := "turon"

  /** A sources row. */
  datatype Source = Source(id: int, hostIp: string, slug: string)

  /** The sources table in insertion order, with the next serial id. */
  datatype SourceTable = SourceTable(rows: seq<Source>, nextId: int)

  /** Which repository call fails, if any. */
  datatype Fault = Healthy | FailGet | FailCreate

  /** The answer of FindSourceOrCreate and the table after it. */
  datatype Resolution = Resolution(table: SourceTable, result: Result<Source, Error>)

  /** Slugs are unique and ids were handed out by the table. */
  ghost predicate Valid(t: SourceTable)
  {
    && (forall i, j :: 0 <= i < j < |t.rows| ==> t.rows[i].slug != t.rows[j].slug)
    && (forall i :: 0 <= i < |t.rows| ==> t.rows[i].id < t.nextId)
  }

  /** GetSourceBySlug on a healthy store: the first row with the slug. */
  function FindBySlug(rows: seq<Source>, slug: string): (r: Option<Source>)
    ensures r.None? <==> forall i :: 0 <= i < |rows| ==> rows[i].slug != slug
    ensures r.Some? ==> r.value in rows && r.value.slug == slug
  {
    if rows == [] then None
    else if rows[0].slug == slug then Some(rows[0])
    else FindBySlug(rows[1..], slug)
  }

  /** FindSourceOrCreate(turonUserID, hostIP). Every outcome of one call:
      no turon id or a failed lookup is an error with the table untouched;
      an existing turon source is returned as it is; otherwise exactly one
      turon source carrying the caller's host is created and returned,
      unless its insert fails. */
  function FindOrCreate(t: SourceTable, turonUserId: int, hostIp: string, fault: Fault): (r: Resolution)
    ensures turonUserId == 0 ==> r == Resolution(t, Failure(NoSourceSlug))
    ensures turonUserId != 0 && fault == FailGet ==> r == Resolution(t, Failure(GetSourceFailed(Database)))
    ensures r.result.Success? ==> r.result.value.slug == SourceTuron && r.result.value in r.table.rows
    ensures turonUserId != 0 && fault != FailGet && FindBySlug(t.rows, SourceTuron).Some? ==>
      r == Resolution(t, Success(FindBySlug(t.rows, SourceTuron).value))
    ensures turonUserId != 0 && fault == FailCreate && FindBySlug(t.rows, SourceTuron).None? ==>
      r == Resolution(t, Failure(CreateSourceFailed(Database)))
    ensures turonUserId != 0 && fault == Healthy && FindBySlug(t.rows, SourceTuron).None? ==>
      r == Resolution(SourceTable(t.rows + [Source(t.nextId, hostIp, SourceTuron)], t.nextId + 1),
                      Success(Source(t.nextId, hostIp, SourceTuron)))
    ensures r.table != t ==> |r.table.rows| == |t.rows| + 1 && r.table.rows[..|t.rows|] == t.rows
  {
    if turonUserId == 0 then Resolution(t, Failure(NoSourceSlug))
    else
      var slug := SourceTuron;
      if fault == FailGet then Resolution(t, Failure(GetSourceFailed(Database)))
      else match FindBySlug(t.rows, slug)
        case Some(found) => Resolution(t, Success(found))
        case None =>
          if fault == FailCreate then Resolution(t, Failure(CreateSourceFailed(Database)))
          else
            var created := Source(t.nextId, hostIp, slug);
            Resolution(SourceTable(t.rows + [created], t.nextId + 1), Success(created))
  }

  /** Slugs stay unique: a call never creates a second row for a slug. */
  lemma FindOrCreateValid(t: SourceTable, turonUserId: int, hostIp: string, fault: Fault)
    requires Valid(t)
    ensures Valid(FindOrCreate(t, turonUserId, hostIp, fault).table)
  {
    var r := FindOrCreate(t, turonUserId, hostIp, fault);
    if r.table != t {
      assert FindBySlug(t.rows, SourceTuron).None?;
      assert r.table.rows == t.rows + [Source(t.nextId, hostIp, SourceTuron)];
    }
  }

  /** Sequential idempotence: once a call has succeeded, a second call for
      any turon user (from any host) returns the same source and creates
      nothing, as long as the lookup works. */
  lemma FindOrCreateIdempotent(t: SourceTable, turonUserId: int, hostIp: string, fault: Fault,
                               secondUserId: int, secondHostIp: string, secondFault: Fault)
    requires Valid(t)
    requires FindOrCreate(t, turonUserId, hostIp, fault).result.Success?
    requires secondUserId != 0 && secondFault != FailGet
    ensures var first := FindOrCreate(t, turonUserId, hostIp, fault);
      var second := FindOrCreate(first.table, secondUserId, secondHostIp, secondFault);
      second == Resolution(first.table, first.result)
  {
    var first := FindOrCreate(t, turonUserId, hostIp, fault);
    FindOrCreateValid(t, turonUserId, hostIp, fault);
    FirstMatchIsUnique(first.table.rows, SourceTuron, first.result.value);
  }

  /** With unique slugs, the row with a slug is the one FindBySlug returns. */
  lemma {:induction false} FirstMatchIsUnique(rows: seq<Source>, slug: string, s: Source)
    requires forall i, j :: 0 <= i < j < |rows| ==> rows[i].slug != rows[j].slug
    requires s in rows && s.slug == slug
    ensures FindBySlug(rows, slug) == Some(s)
    decreases |rows|
  {
    if rows[0] != s {
      assert rows[0].slug != slug by {
        var j :| 0 <= j < |rows| && rows[j] == s;
        assert j != 0;
      }
      forall i, j | 0 <= i < j < |rows[1..]|
        ensures rows[1..][i].slug != rows[1..][j].slug
      {
        assert rows[1..][i] == rows[i + 1] && rows[1..][j] == rows[j + 1];
      }
      FirstMatchIsUnique(rows[1..], slug, s);
    }
  }

  /** The sources table. */
  class SourceRepository {
    var rows: seq<Source>
    var nextId: int
    const fault: Fault

    function Table(): SourceTable
      reads this
    {
      SourceTable(rows, nextId)
    }

    constructor (fault: Fault)
      ensures Table() == SourceTable([], 1) && this.fault == fault
    {
      rows, nextId := [], 1;
      this.fault := fault;
    }

    /** The first live row with the slug, or None. */
    method GetSourceBySlug(slug: string) returns (r: Result<Option<Source>, Error>)
      ensures fault == FailGet ==> r == Failure(Database)
      ensures fault != FailGet ==> r == Success(FindBySlug(rows, slug))
    {
      if fault == FailGet {
        return Failure(Database);
      }
      r := Success(FindBySlug(rows, slug));
    }

    /** Inserts a row and fills in the id the store assigned. */
    method CreateSource(hostIp: string, slug: string) returns (r: Result<Source, Error>)
      modifies this
      ensures fault == FailCreate ==> r == Failure(Database) && Table() == old(Table())
      ensures fault != FailCreate ==>
        r == Success(Source(old(nextId), hostIp, slug))
        && Table() == SourceTable(old(rows) + [r.value], old(nextId) + 1)
    {
      if fault == FailCreate {
        return Failure(Database);
      }
      var created := Source(nextId, hostIp, slug);
      rows := rows + [created];
      nextId := nextId + 1;
      r := Success(created);
    }
  }

  /** SourceService. */
  class SourceService {
    const repo: SourceRepository

    constructor (repo: SourceRepository)
      ensures this.repo == repo
    {
      this.repo := repo;
    }

    /** FindSourceOrCreate: the table and the answer are those of FindOrCreate. */
    method FindSourceOrCreate(turonUserId: int, hostIp: string) returns (r: Result<Source, Error>)
      modifies repo
      ensures Resolution(repo.Table(), r) == FindOrCreate(old(repo.Table()), turonUserId, hostIp, repo.fault)
    {
      var slug: string;
      if turonUserId != 0 {
        slug := SourceTuron;
      } else {
        return Failure(NoSourceSlug);
      }
      var found := repo.GetSourceBySlug(slug);
      if found.Failure? {
        return Failure(GetSourceFailed(found.error));
      }
      if found.value.Some? {
        return Success(found.value.value);
      }
      var created := repo.CreateSource(hostIp, slug);
      if created.Failure? {
        return Failure(CreateSourceFailed(created.error));
      }
      r := created;
    }
  }
}

=== FILE: wrappers.dfy ===
/** Failure-carrying results shared by every module of the model.
    Go's `error` return (nil or an error) is an Outcome; a `(value, error)`
    pair is a Result. */
module Wrappers {

  datatype Option<+T> = None | Some(value: T)

  datatype Result<+R, +E> = Success(value: R) | Failure(error: E)

  datatype Outcome<+E> = Pass | Fail(error: E)
}
